=== FILE: README.md ===
# A Dafny model of the study assistant's core

The application is a PHP study tool. A learner uploads study material and the
application generates true/false questions on its topics. The learner's level
(1 to 5) and weak topics adapt after every answer. A learner may dispute a
question's answer key: the dispute is checked against a web search and
judged by a text-generation service, and an accepted dispute corrects the
question and recomputes the progress of everyone who answered it. Around this
sit a login with an inactivity timeout, a dashboard of study sessions, a user
administration page and a printable progress report.

The model is functional. The PHP session (`$_SESSION`) is an immutable
record, `SessionState.HttpSession`. The SQLite store is a value,
`Store.Db`. Every request handler is a pure function from the old state and
its inputs to the new state. Inputs include the clock, the random draws and
the replies of external services.

Modules, one per part of the program:

- `Php`: the language behaviour the code relies on. This covers loose values and
  truthiness, the truncating `%`, `round`, integer-to-text conversion and
  `sprintf('%02d')`.
- `Store` (database.php): study sessions, progress rows and questions, with
  the round trips through them.
- `SessionState`: the `$_SESSION` keys the pages read and write.
- `Tracker` (index.php `answer`): the adaptive level and weak-topic update.
- `TopicSelector` (index.php `generate`): the biased choice of the next topic.
- `StudyFlow` (index.php): the `generate`, `answer` and `reset` actions.
- `Dispute` (challenge_agent.php): the answer-key dispute pipeline.
- `Auth` (auth.php): login, the timeout check and the `HH:MM` duration.
- `Dashboard` (sessions.php): switching and deleting sessions, and grouping sessions by level.
- `AdminUsers` (admin_users.php): the account actions with their
  self-protection guards, and the status counts.
- `Report` (pdf_generator.php): the study-time text, the rates, the topic
  badges and the report file name.

Store methods that are called but not defined in database.php are not run
by the model. The dispute pipeline records each such call in a trace
(`Dispute.Call`), and the replies come in as an input (`Dispute.Oracle`).
The same goes for the user-administration and session-deletion methods.

## Model

| member | source | states |
|---|---|---|
| Php.TruncRem | auth.php:80 | PHP's `%` truncates toward zero: the remainder lies strictly between -b and b, has the dividend's sign, and differs from the dividend by a multiple of b |
| Php.Round | challenge_agent.php:266 | `round` lands within half a unit of its argument, is non-negative for non-negative input, and rounds a half away from zero: up only for non-negative input, down only for negative input |
| Php.Percent1 | pdf_generator.php:57 | the success rate is 0 without questions, lies in 0..100 for consistent counts, is within 0.05 of the exact percentage, and has at most one decimal |
| Php.Round1 | pdf_generator.php:57 | `round($x, 1)` lands within 0.05 of its argument, is non-negative for non-negative input, and is a whole number of tenths |
| Php.TruthBit | database.php:150 | `$x ? 1 : 0` is 1 exactly when the value is present and truthy, and 0 otherwise |
| Php.Hours | auth.php:79 | `floor($d / 3600)` is the largest h with `h*3600 <= d`, non-negative for a non-negative duration |
| Php.Minutes | auth.php:80 | `floor(($d % 3600) / 60)` with the truncating `%` lies in -60..59, and in 0..59 for a non-negative duration |
| Php.PadTwo | auth.php:81 | `sprintf('%02d')` gives at least two characters, and exactly two digits for 0..99 |
| Php.PadTwoRoundTrip | auth.php:81 | `sprintf('%02d')` of a non-negative number is all digits and reads back as that number |
| Php.ParseNatToString | auth.php:81 | the decimal text of a natural number reads back as that number |
| Store.CreateSession | database.php:67-87 | a new session id is fresh; the session row holds the given name, content and topics; its progress row is the default (0, 0, level 1, no weak topics); no other row changes; the store invariant is kept |
| Store.GetSession | database.php:89-100 | a row is returned exactly when the id exists, and it is that row |
| Store.GetProgress | database.php:113-124 | a progress row is returned exactly when the session has one |
| Store.UpdateProgress | database.php:126-141 | the session's row afterwards holds the four given values; an unknown session changes nothing; other rows are untouched |
| Store.SaveQuestion | database.php:143-158 | a fresh, unanswered question row carries the generator's fields; its key is 1 exactly when the generated answer is truthy |
| Store.AnswerQuestion | database.php:160-169 | only the answer (as 1/0) and the timestamp of that question change; an unknown id changes nothing |
| Store.GetQuestion | database.php:171-176 | a question is returned exactly when the id exists |
| Store.CreateThenGet | database.php:67-124 | a created session reads back with its topics and the default progress |
| Store.WeakPointsRoundTrip | database.php:126-141 | the weak-topic list written by `updateProgress` is the one `getProgress` returns |
| Store.SaveThenGet | database.php:143-176 | a saved question reads back with its statement, topic and explanation, unanswered |
| Tracker.Without | index.php:169 | removing a topic id leaves every other id and no copy of it, never lengthens the list, and keeps it duplicate-free |
| Tracker.AddThenRemove | index.php:169-176 | adding an absent id and then removing it restores the list |
| Tracker.PromotesCrossMultiplied | index.php:165 | the test `total >= 3 && correct/total >= 0.7` is the integer test `total >= 3 && 10*correct >= 7*total` |
| Tracker.AddIfAbsent | index.php:174-176 | the topic id ends up in the list, no other id is added, the old entries keep their places, and a duplicate-free list stays duplicate-free |
| Tracker.ApplyAnswer | index.php:155-176 | one answer adds one to the total and one to the correct count when right; the level rises by one exactly when the answer is right, there are at least 3 answers at 70% or more, and the level is below 5; it falls by one exactly when the answer is wrong and the level is above 1; a right answer removes the topic from the weak list; a wrong one adds it once; other ids are untouched; the invariant (0 <= correct <= total, level 1..5, no duplicates) is kept |
| Tracker.ValidAlongHistory | index.php:155-179 | over any sequence of answers the progress row stays valid, and the total counts the answers |
| Tracker.DifficultyDrift | index.php:163-173 | after n answers the level is within n of where it started |
| Tracker.ThirdCorrectAnswerPromotes | index.php:164-168 | from level 1 with 2 of 2 right, a third right answer gives level 2 |
| Tracker.WrongAnswerMarksTopic | index.php:170-176 | a wrong answer at level 3 lowers the level to 2 and lists the topic as weak |
| TopicSelector.FindTopic | index.php:109-114 | the search finds the first topic with the id, or reports that none has it |
| TopicSelector.SelectTopic | index.php:102-121 | selection fails only for an empty topic list; the topic is one of the session's topics; it is flagged weak exactly when its id is in the weak list |
| TopicSelector.UniformWhenNotBiased | index.php:107-118 | with no weak topics or a roll of 30 or less, the uniform draw is used |
| TopicSelector.WeakBranchPicksWeakTopic | index.php:107-115 | on a roll above 30 a weak id that names a topic selects the first such topic, flagged weak |
| TopicSelector.StaleWeakIdFallsBack | index.php:107-119 | a weak id that names no topic falls back to the uniform draw |
| SessionState.ClearStudy | sessions.php:38-40 | the current question, the last answer and the dispute result are dropped; the login keys and active session are kept |
| StudyFlow.Generate | index.php:96-142 | without an active session nothing happens; with one, the request succeeds exactly when the session row and progress row exist, the session has topics and the generator replied; on failure state is unchanged; the generator is asked about one of the session's topics, at the session's level, with the weak flag exactly when the topic is weak; on success the saved question belongs to the session, becomes current and is unanswered |
| StudyFlow.Answer | index.php:144-188 | without a current question or posted answer nothing happens; otherwise the request succeeds exactly when the question exists and the session has a progress row; a missing question changes nothing; once the question exists the answer is stored as 1 exactly for the text `true`, with the current time, even when the session id or progress row then turns out missing; on success the session's progress becomes `Tracker.ApplyAnswer` of the stored key compared as a boolean, the current question is cleared and the feedback is kept; other questions, other sessions' progress and validity are preserved |
| StudyFlow.Matches | index.php:155 | the loose comparison of the answer with the stored key: a stored 0 matches `false`, any other key matches `true` |
| StudyFlow.StoredKeyMatches | index.php:147-155 | against the key `saveQuestion` stores, posting exactly the text `true` is correct exactly when the generated answer was truthy |
| StudyFlow.Reset | index.php:190-215 | the study keys are cleared; the login keys and the provider survive; the activity time is refreshed only for a logged-in visitor |
| StudyFlow.ResetStopsStudy | index.php:190-215 | after a reset an answer post and a generate request both change nothing and report nothing |
| StudyFlow.AnswerRepostIsNoOp | index.php:144-186 | once an answer is processed, posting it again changes nothing, because the current question is gone |
| StudyFlow.GeneratedLevelIsDescribed | api.php:125-131 | with valid progress rows the level sent to the generator is one of the five described levels |
| StudyFlow.CreateSessionKeepsRowsValid | database.php:67-87 | a new session keeps every progress row valid |
| Dispute.Sanitize | challenge_agent.php:179-180 | only word characters, whitespace (Unicode spaces included) and `-` remain, Latin-1 and Latin Extended letters such as `à`, `ü` and `ñ` among them; each kept character survives, in order |
| Dispute.SanitizeAppend | challenge_agent.php:179-180 | the filter works character by character: sanitising a concatenation concatenates the sanitised parts |
| Dispute.SanitizeIdempotent | challenge_agent.php:179-180 | sanitising twice is sanitising once |
| Dispute.SanitizeOne | challenge_agent.php:179-180 | one character survives the filter exactly when the character class admits it |
| Dispute.SanitizeKeepsLatinText | challenge_agent.php:179-180 | under the `u` flag `à`, `À`, `ñ`, `ü`, `²`, the no-break space and the em space are kept; `×`, `÷` and `?` are removed |
| Dispute.BuildSearchQuery | challenge_agent.php:177-187 | the query is the sanitised statement cut to 200 characters, one space, and the sanitised argument cut to 100, and holds only kept characters |
| Dispute.Truncate | challenge_agent.php:182-183 | the cut keeps the whole text when it is short enough and otherwise exactly its first n characters |
| Dispute.CleanShortQueryUnchanged | challenge_agent.php:177-187 | a clean, short statement and argument reach the search unchanged |
| Dispute.ClampDepth | challenge_agent.php:105-107 | the depth is the configured one if it is allowed, else `basic` |
| Dispute.ClampMaxResults | challenge_agent.php:110-113 | the result count is the configured one if it lies in 0..20, else 5 |
| Dispute.Normalize | challenge_agent.php:152-171 | each result becomes a source numbered in order with `Sem título`, empty text or 0 for missing fields, and the summary comes last when present |
| Dispute.SearchWeb | challenge_agent.php:100-172 | the request carries the built query and clamped parameters; sources exist exactly when the reply is HTTP 200 without a transport error |
| Dispute.FormatWebSources | challenge_agent.php:250-272 | the evidence is the summary if any, the heading, then every non-summary source numbered consecutively from 1 with a 500-character excerpt and a rounded percentage |
| Dispute.NormalizedSourcesAreResults | challenge_agent.php:155-171 | the numbered sources of a reply are exactly its results in order |
| Dispute.SummaryIsNotASource | challenge_agent.php:261 | the summary entry is never numbered as a source |
| Dispute.MakeDecision | challenge_agent.php:277-297 | when the confidence is below 0.7 under PHP 8's comparison the decision is `rejected`; otherwise it is the adjudicator's; a correction is carried only when accepted |
| Dispute.BelowThreshold | challenge_agent.php:279-282 | `($c ?? 0) < 0.7` as PHP 8 evaluates it: a missing value is below; numbers and plain decimal numerals compare as numbers; a boolean is below exactly when it is `false`; other text compares byte-wise with `"0.7"` |
| Dispute.LowConfidenceRejects | challenge_agent.php:279-284 | a missing confidence, `false`, a number below 0.7 or the numeral `"0"` always leads to rejection |
| Dispute.NonNumericConfidencePasses | challenge_agent.php:279-291 | an acceptance whose confidence is `true` or the word `"high"` passes the gate and is accepted |
| Dispute.AcceptedIffConfidentAcceptance | challenge_agent.php:277-297 | a dispute is accepted exactly when the adjudicator accepts and its confidence is not below 0.7 |
| Dispute.RecalculateAffectedUsers | challenge_agent.php:302-319 | the affected rows are listed, then each one's progress is recomputed, in order |
| Dispute.Conclude | challenge_agent.php:61-94 | the challenge record is finalised exactly once; the question is corrected and the affected learners recomputed only when the dispute is accepted |
| Dispute.Adjudicate | challenge_agent.php:59-94 | the adjudicator is asked with the question's statement, key, explanation and key concept, the learner's argument and the evidence of the sources; the run succeeds exactly when the reply carries a decision, and then finalises the challenge once with the gated decision, correcting the question only on acceptance |
| Dispute.Examine | challenge_agent.php:56-94 | after the challenge is recorded the built query is searched with the clamped parameters; the run fails with `SearchFailed` exactly when the search is not HTTP 200, fails with `AnalysisFailed` exactly when the search succeeded but the reply has no decision, and succeeds otherwise; a failed run has made no update call; a success asks with the evidence of the normalised sources, then finalises the challenge with `makeDecision`'s decision and touches the question only on acceptance |
| Dispute.ProcessChallenge | challenge_agent.php:24-95 | an empty or `"0"` key, a missing question or a reached limit stops before anything is recorded; an admitted challenge is counted, recorded and searched with the built query, in that order; the run succeeds exactly when the challenge is admitted, the search is HTTP 200 and the reply carries a decision; a failed search or analysis leaves the challenge recorded but never finalised and the question untouched; the question is changed only on acceptance; low confidence always means rejection with no further calls |
| Auth.CheckLogin | auth.php:19-39 | the visitor passes exactly when `logged_in` is `true` and inactivity does not exceed the timeout; passing refreshes the activity time; expiry empties the session |
| Auth.Login | auth.php:41-55 | login succeeds exactly on both credentials matching; success sets the flag, the user name and both times and leaves the study keys, provider, feedback and challenge flag as they were; failure changes nothing |
| Auth.Logout | auth.php:57-61 | every session key is unset afterwards: the login flag, user name, both times, provider, study session, current question, feedback and challenge result |
| Auth.RequireLogin | auth.php:63-68 | the page continues exactly when `checkLogin` passes |
| Auth.LoginThenCheck | auth.php:19-55 | right after login the check passes exactly while the timeout has not elapsed |
| Auth.LogoutThenCheck | auth.php:57-61 | after logout the check never passes |
| Auth.CheckRefreshesWindow | auth.php:28-38 | a passing check restarts the inactivity window |
| Auth.SessionDuration | auth.php:75-84 | without a login time the text is `00:00`; after a login at or before now the text reads back as the whole hours and leftover minutes since login |
| Auth.Clock | auth.php:78-81 | for a non-negative duration the `HH:MM` text ends in a colon and two digits and reads back as the whole hours and the leftover minutes |
| Auth.ClockRoundTrip | auth.php:81 | two numbers printed with `%02d` around a colon read back as the same two numbers |
| Php.ClockArithmetic | auth.php:79-80 | the hours and minutes account for a non-negative duration up to the dropped seconds: `h*3600 + m*60 <= d < h*3600 + m*60 + 60` |
| Dashboard.LevelOf | sessions.php:89-97 | levels 1-2 are critical, 3 needs attention, the rest are good |
| Dashboard.GroupByLevel | sessions.php:83-98 | each bucket holds exactly the sessions of its level, in their original order |
| Dashboard.BucketsPartition | sessions.php:89-97 | every session lands in exactly one bucket: together the three buckets hold the same sessions, counted with repetition |
| Dashboard.BucketSizes | sessions.php:89-97 | the bucket sizes sum to the number of sessions |
| Dashboard.BucketTotals | sessions.php:100-102 | the answer counts of the three buckets sum to the overall counts |
| Dashboard.Statistics | sessions.php:100-103 | the session count is the number of rows; the question and correct totals are the column sums and equal the sums over the three level buckets; the average is 0 without answers, otherwise within 0.05 of the exact percentage, and always has at most one decimal |
| Dashboard.AverageIsPercentage | sessions.php:103 | with consistent rows the average lies in 0..100 |
| Dashboard.SelectSession | sessions.php:28-49 | a session becomes active exactly when it exists and belongs to the user, and switching clears the study keys |
| Dashboard.DeleteSession | sessions.php:51-71 | a session is deleted exactly when it exists and belongs to the user; the study keys are cleared only if it was the active session |
| Dashboard.ForeignSessionUntouchable | sessions.php:33-34 | another user's session can be neither selected nor deleted |
| AdminUsers.Guard | admin_users.php:27-95 | no store call exactly for an unknown action or a missing field; a refusal exactly for a request against the acting admin's own account or rights; otherwise the call that the action names, for the posted user |
| AdminUsers.Handle | admin_users.php:23-99 | a store call is made exactly when the action is one of the four, its fields are posted, and it does not deactivate, delete or demote the acting admin; `activate` calls with the acting admin as approver; `deactivate` and `delete` of another user call the store for that user; `toggle_admin` sets the flag to whether the posted value is `'1'`; self-harming requests get their own refusal; an error follows a call exactly when the store refuses it |
| AdminUsers.SelfPromotionAllowed | admin_users.php:63-66 | granting admin rights to oneself reaches the store |
| AdminUsers.OnlyOneGrants | admin_users.php:61 | a posted `true` removes the admin flag |
| AdminUsers.CountStatuses | admin_users.php:109-122 | active and inactive counts add up to the number of users; admins are counted whether active or not |
| AdminUsers.CountsMatchFlags | admin_users.php:113-121 | all users are counted active exactly when all are active; no admin is counted exactly when none is an admin |
| AdminUsers.Offered | admin_users.php:326-371 | no deactivate or delete button appears on the admin's own row; inactive users get an activate button, non-admins a grant button, other users a delete button |
| AdminUsers.OfferedPassGuards | admin_users.php:326-371 | every button the page offers passes the guards and reaches the store |
| Report.FormatStudyTime | pdf_generator.php:562-571 | the text ends in `min` and shows hours exactly when there is at least one whole hour |
| Report.StudyTimeTextRoundTrip | pdf_generator.php:567 | the text with hours reads back as the same hours and minutes |
| Report.MinutesTextRoundTrip | pdf_generator.php:569 | the minutes-only text reads back as zero hours and the same minutes |
| Report.StudyTimeRoundTrip | pdf_generator.php:562-571 | for a non-negative time the text reads back as the whole hours (when positive) and the leftover minutes, which are below 60 |
| Report.ReportHeadline | pdf_generator.php:55-60 | without questions the rate is 0%; with questions it is within 0.05 of the exact percentage and in 0..100 for consistent counts; a missing study time gives `0min`; a non-negative study time text reads back as its whole hours and leftover minutes |
| Report.BadgeFor | pdf_generator.php:412-421 | on the percentage rounded to one decimal the badge is danger below 50, warning from 50 to below 70, and success (`Good`) from 70 up |
| Report.BadgeThresholds | pdf_generator.php:412-421 | because of the rounding the raw thresholds sit at 49.95 and 69.95 |
| Report.SafeName | pdf_generator.php:545 | the name keeps its length; at every position an ASCII letter or digit stays and any other character becomes `_` |
| Report.SafeNameFixpoint | pdf_generator.php:545 | a name of letters, digits and `_` is its own safe form, and sanitising twice changes nothing |
| Report.ReportFileName | pdf_generator.php:545 | the file name is `relatorio_`, the safe name at the same length, `_`, exactly the time stamp, and `.html` |
| Report.FileNameHasNoSeparator | pdf_generator.php:545-546 | with a digit time stamp the file name contains no path separator, whatever the user's name |
| Report.SaveAsHtml | pdf_generator.php:537-557 | the path and the URL are the reports directory followed by the file name, and the type is `html` |

## Left out

- Network calls are not modelled: the search service, the text-generation service (api.php) and cURL. Their replies are inputs, and a transport error is one reply among others.
- JSON encoding and decoding are taken as exact round trips. Columns such as `core_topics` and `weak_points` are stored as typed values, not as text.
- The shown files call store methods without defining them. Their calls are recorded and their results are inputs: `countQuestionChallenges`, `createChallenge`, `updateChallenge`, `updateQuestionAfterChallenge`, `getUsersAffectedByQuestion`, `recalculateUserProgress`, `getUserSessionsWithProgress`, `deleteSession`, the user-administration methods, `Auth::getUserId` and `Auth::requireAdmin`. No postcondition is assumed for them.
- The owner of a study session comes in as a map from session id to user id, because the shown schema of database.php has no `user_id` column.
- Concurrent requests are not modelled. Each request runs on its own from one state to the next.
- Text is a sequence of characters with no UTF-8 decoding. Outside `Dispute` each character stands for one byte, as `substr` and regular expressions without the `u` flag see text. `Report.SafeName` therefore turns the two bytes of an accented letter into two underscores, as PHP does ("José" gives "Jos__"). `Dispute` reads each character as one Unicode code point instead, because its filter uses the `u` flag and keeps accented letters whole.
- Dispute.BuildSearchQuery: the statement and argument are cut after 200 and 100 characters, counted as code points. `substr` counts bytes, so on text with accented letters PHP keeps fewer letters and may split the last letter's bytes. The model promises only the code-point cut.
- Dispute.FormatWebSources: the 500-character excerpt of each source is likewise counted in code points where `substr` counts bytes.
- Dispute.Sanitize: the model knows PCRE's Unicode `\w` only up to U+024F (ASCII, Latin-1, Latin Extended-A and -B). Letters, digits and combining marks above U+024F, such as Greek or Cyrillic letters and non-ASCII decimal digits, are kept by PHP but dropped by the model. Its `\s` is complete.
- Floating-point arithmetic is exact rational arithmetic in the model. Ratios, `round` and the 0.7 thresholds can differ from IEEE doubles at the last bit.
- StudyFlow.Answer: when the current question id has no row but the progress row exists, index.php does not stop. It reads `null` for the key, the topic and the explanation, so the answer counts as correct exactly when the posted text is not `true`. It then updates the progress row: the total goes up, the level moves, and a wrong answer appends `null` to the weak list unless 0 is already listed. Finally it sets the feedback with a `null` explanation and clears the current question. The model instead stops with `QuestionMissing` and changes nothing, because its progress rows hold topic ids only and have no place for a `null` entry.
- StudyFlow.Answer and StudyFlow.Generate: a missing session id or progress row leaves `null` where index.php expects an array, and `array_diff`, `in_array` or `array_rand` then ends the request with a TypeError; the model stops with an error at that point instead. In `answer` this happens after the answer has been recorded, since `answerQuestion` runs first, and the model records it too. In `generate` it happens before anything is saved.
- Dispute.ProcessChallenge: the search, the adjudication and the affected-user list are taken as inputs. The prompt text and the JSON parsing of the reply in `analyzeWithAI` are not modelled.
- Dispute.ProcessChallenge: the affected users are recomputed once per row returned, including repeats. The code does not remove duplicate user/session pairs, so neither does the model.
- Dispute.ProcessChallenge: a missing search key (empty, unset or `"0"`) is reported as an error before anything else. In the source, the constructor throws in this case.
- Dispute.BelowThreshold: only plain decimal numerals (`12`, `0.5`, `.5`, `5.`) count as numeric text. PHP 8 also accepts leading and trailing whitespace (`" 0.5"`, `"0.5 "`), a sign and an exponent; the model compares such text byte-wise with `"0.7"` instead. An array as confidence is not modelled.
- HTML rendering of all pages is not modelled, including reports.php, which repeats the report's formatting. Only the values the pages compute and the buttons they offer are modelled.
- Report.SaveAsHtml: creating the directory and writing the file are not modelled. The time stamp of `date('YmdHis')` is a parameter.
- Uploads, PDF text extraction and the provider switch in index.php (`upload`, `upload_text`, `change_provider`) are outside this model.

=== FILE: admin.dfy ===
/**
 * The user administration page of admin_users.php: the four POST actions
 * with their self-protection guards (lines 23-99), the status counts over
 * the user list (lines 109-122) and the buttons offered per row
 * (lines 326-371).
 *
 * The store methods the actions call are not defined in database.php; the
 * model records which one is called and with what, and takes its success
 * as an input.
 */
module AdminUsers {
  import opened Php

  /** A POST to `admin_users.php?action=...` with its `user_id` and `is_admin` fields, when set. */
  datatype Request = Request(action: string, userId: Option<int>, isAdmin: Option<string>)

  /** The store call an action makes. */
  datatype StoreCall =
    | ActivateUser(target: int, approver: int)
    | DeactivateUser(target: int)
    | SetAdmin(target: int, isAdmin: bool)
    | DeleteUser(target: int)

  datatype AdminError = SelfDeactivation | SelfDemotion | SelfDeletion | StoreRefused

  /** The store call made, if any, and the error shown, if any. */
  datatype Outcome = Outcome(call: Option<StoreCall>, error: Option<AdminError>)

  /** The posted `is_admin` grants the flag only when it is exactly `'1'`. */
  predicate GrantsAdmin(posted: string) {
    posted == "1"
  }

  /** One of the four actions the page handles. */
  predicate KnownAction(action: string) {
    action == "activate" || action == "deactivate" || action == "toggle_admin" || action == "delete"
  }

  /**
   * The fields the action reads are all posted: `user_id` always, and
   * `is_admin` too for `toggle_admin`.
   */
  predicate FieldsPosted(req: Request) {
    req.userId.Some? && (req.action == "toggle_admin" ==> req.isAdmin.Some?)
  }

  /** The request would take the administrator's own account away or lower its rights. */
  predicate AgainstSelf(req: Request, me: int) {
    && req.userId == Some(me)
    && (req.action == "deactivate" || req.action == "delete"
        || (req.action == "toggle_admin" && req.isAdmin.Some? && req.isAdmin.value != "1"))
  }

  /** The store call a request asks for, or the guard that stops it before the store is reached. */
  function Guard(req: Request, me: int): (r: Option<Result<StoreCall, AdminError>>)
    ensures r.None? <==> !KnownAction(req.action) || !FieldsPosted(req)
    ensures r.Some? ==> (r.value.Failure? <==> AgainstSelf(req, me))
    ensures r.Some? && r.value.Success? ==>
      var target := req.userId.value;
      && (req.action == "activate" ==> r.value.value == ActivateUser(target, me))
      && (req.action == "deactivate" ==> r.value.value == DeactivateUser(target))
      && (req.action == "toggle_admin" ==> r.value.value == SetAdmin(target, req.isAdmin.value == "1"))
      && (req.action == "delete" ==> r.value.value == DeleteUser(target))
  {
    match req.userId
    case None => None
    case Some(target) =>
      if req.action == "activate" then Some(Success(ActivateUser(target, me)))
      else if req.action == "deactivate" then
        if target == me then Some(Failure(SelfDeactivation)) else Some(Success(DeactivateUser(target)))
      else if req.action == "toggle_admin" then
        match req.isAdmin
        case None => None
        case Some(posted) =>
          var grant := GrantsAdmin(posted);
          if target == me && !grant then Some(Failure(SelfDemotion)) else Some(Success(SetAdmin(target, grant)))
      else if req.action == "delete" then
        if target == me then Some(Failure(SelfDeletion)) else Some(Success(DeleteUser(target)))
      else None
  }

  /** Handling one POST; `storeAccepts` is what the called store method returns. */
  function Handle(req: Request, me: int, storeAccepts: bool): (r: Outcome)
    ensures r.call.Some? <==> KnownAction(req.action) && FieldsPosted(req) && !AgainstSelf(req, me)
    ensures r.call.Some? ==> r.call.value != DeactivateUser(me) && r.call.value != DeleteUser(me) && r.call.value != SetAdmin(me, false)
    ensures req.userId.Some? && req.action == "activate" ==> r.call == Some(ActivateUser(req.userId.value, me))
    ensures req.userId.Some? && req.userId.value != me && req.action == "deactivate" ==> r.call == Some(DeactivateUser(req.userId.value))
    ensures req.userId.Some? && req.userId.value != me && req.action == "delete" ==> r.call == Some(DeleteUser(req.userId.value))
    ensures req.userId.Some? && req.action == "toggle_admin" && req.isAdmin.Some? && (req.userId.value != me || req.isAdmin.value == "1") ==>
      r.call == Some(SetAdmin(req.userId.value, req.isAdmin.value == "1"))
    ensures req.action == "deactivate" && req.userId == Some(me) ==> r == Outcome(None, Some(SelfDeactivation))
    ensures req.action == "delete" && req.userId == Some(me) ==> r == Outcome(None, Some(SelfDeletion))
    ensures req.action == "toggle_admin" && req.userId == Some(me) && req.isAdmin.Some? && req.isAdmin.value != "1" ==>
      r == Outcome(None, Some(SelfDemotion))
    ensures !KnownAction(req.action) || !FieldsPosted(req) ==> r == Outcome(None, None)
    ensures r.call.Some? ==> (r.error.None? <==> storeAccepts)
    ensures r.error == Some(StoreRefused) ==> r.call.Some? && !storeAccepts
  {
    match Guard(req, me)
    case None => Outcome(None, None)
    case Some(Failure(e)) => Outcome(None, Some(e))
    case Some(Success(call)) => Outcome(Some(call), if storeAccepts then None else Some(StoreRefused))
  }

  /** Granting admin rights to oneself is not blocked. */
  lemma SelfPromotionAllowed(me: int)
    ensures Handle(Request("toggle_admin", Some(me), Some("1")), me, true) == Outcome(Some(SetAdmin(me, true)), None)
  {
  }

  /** A value other than `'1'`, such as `'true'` or `'01'`, removes the flag. */
  lemma OnlyOneGrants(target: int, me: int)
    requires target != me
    ensures Handle(Request("toggle_admin", Some(target), Some("true")), me, true).call == Some(SetAdmin(target, false))
  {
  }

  // ---------------------------------------------------------------------
  // Counts

  /** The columns of a user row the page reads. */
  datatype UserRow = UserRow(id: int, active: bool, isAdmin: bool)

  function CountActive(users: seq<UserRow>): (n: nat)
    ensures n <= |users|
  {
    if users == [] then 0 else CountActive(users[..|users| - 1]) + (if users[|users| - 1].active then 1 else 0)
  }

  function CountAdmins(users: seq<UserRow>): (n: nat)
    ensures n <= |users|
  {
    if users == [] then 0 else CountAdmins(users[..|users| - 1]) + (if users[|users| - 1].isAdmin then 1 else 0)
  }

  /** The `foreach` counting active, inactive and admin users. */
  method CountStatuses(users: seq<UserRow>) returns (active: nat, inactive: nat, admins: nat)
    ensures active == CountActive(users)
    ensures active + inactive == |users|
    ensures admins == CountAdmins(users)
  {
    active, inactive, admins := 0, 0, 0;
    var i := 0;
    while i < |users|
      invariant 0 <= i <= |users|
      invariant active == CountActive(users[..i])
      invariant active + inactive == i
      invariant admins == CountAdmins(users[..i])
    {
      assert users[..i + 1][..i] == users[..i];
      if users[i].active {
        active := active + 1;
      } else {
        inactive := inactive + 1;
      }
      if users[i].isAdmin {
        admins := admins + 1;
      }
      i := i + 1;
    }
    assert users[..|users|] == users;
  }

  /** Every user is counted active exactly when it is; inactive admins are still admins. */
  lemma {:induction false} CountsMatchFlags(users: seq<UserRow>)
    ensures CountActive(users) == |users| <==> forall i :: 0 <= i < |users| ==> users[i].active
    ensures CountAdmins(users) == 0 <==> forall i :: 0 <= i < |users| ==> !users[i].isAdmin
  {
    if users != [] {
      var init := users[..|users| - 1];
      CountsMatchFlags(init);
      assert forall i :: 0 <= i < |init| ==> init[i] == users[i];
    }
  }

  // ---------------------------------------------------------------------
  // Buttons offered per row

  /** The forms the page renders for one row, as the requests they would post. */
  function Offered(u: UserRow, me: int): (r: seq<Request>)
    ensures u.id == me ==> forall k :: 0 <= k < |r| ==> r[k].action != "deactivate" && r[k].action != "delete"
    ensures u.id != me ==> Request("delete", Some(u.id), None) in r
    ensures !u.active ==> Request("activate", Some(u.id), None) in r
    ensures !u.isAdmin ==> Request("toggle_admin", Some(u.id), Some("1")) in r
  {
    (if u.active then (if u.id != me then [Request("deactivate", Some(u.id), None)] else [])
     else [Request("activate", Some(u.id), None)])
    + (if !u.isAdmin then [Request("toggle_admin", Some(u.id), Some("1"))]
       else if u.id != me then [Request("toggle_admin", Some(u.id), Some("0"))]
       else [])
    + (if u.id != me then [Request("delete", Some(u.id), None)] else [])
  }

  /** No button the page offers is one the guards would refuse. */
  lemma OfferedPassGuards(u: UserRow, me: int)
    ensures forall k :: 0 <= k < |Offered(u, me)| ==>
      var o := Handle(Offered(u, me)[k], me, true);
      o.call.Some? && o.error.None?
  {
  }
}

=== FILE: auth.dfy ===
/**
 * Login and session timeout (auth.php). The clock (`time()`) and the
 * configured credentials and timeout are parameters.
 */
module Auth {
  import opened Php
  import opened SessionState

  /**
   * `SESSION_TIMEOUT` (3600 seconds when unset) and `LOGIN_USERNAME` /
   * `LOGIN_PASSWORD` (both `admin` when unset).
   */
  datatype Config = Config(timeout: int, username: string, password: string)

  /** `logged_in` holds exactly the boolean `true`. */
  predicate LoggedInFlag(s: HttpSession) {
    s.loggedIn == Some(VBool(true))
  }

  /** Inactivity beyond the timeout; exactly `timeout` seconds is still fresh. */
  predicate Expired(s: HttpSession, now: int, timeout: int) {
    s.lastActivity.Some? && now - s.lastActivity.value > timeout
  }

  /** `checkLogin`: whether the visitor is logged in, and the session afterwards. */
  function CheckLogin(s: HttpSession, now: int, cfg: Config): (r: (bool, HttpSession))
    ensures r.0 <==> LoggedInFlag(s) && !Expired(s, now, cfg.timeout)
    ensures !LoggedInFlag(s) ==> r.1 == s
    ensures LoggedInFlag(s) && Expired(s, now, cfg.timeout) ==> r.1 == Empty
    ensures r.0 ==> r.1.lastActivity == Some(now) && r.1 == s.(lastActivity := Some(now))
  {
    if !LoggedInFlag(s) then (false, s)
    else if Expired(s, now, cfg.timeout) then (false, Logout(s))
    else (true, s.(lastActivity := Some(now)))
  }

  /** `login`: strict comparison of both credentials. */
  function Login(s: HttpSession, username: string, password: string, now: int, cfg: Config): (r: (bool, HttpSession))
    ensures r.0 <==> username == cfg.username && password == cfg.password
    ensures !r.0 ==> r.1 == s
    ensures r.0 ==> LoggedInFlag(r.1) && r.1.username == Some(username)
    ensures r.0 ==> r.1.lastActivity == Some(now) && r.1.loginTime == Some(now)
    ensures r.0 ==> r.1.studySession == s.studySession && r.1.currentQuestion == s.currentQuestion
    ensures r.0 ==> r.1.aiProvider == s.aiProvider && r.1.lastAnswer == s.lastAnswer
    ensures r.0 ==> r.1.hasChallengeResult == s.hasChallengeResult
  {
    if username == cfg.username && password == cfg.password then
      (true, s.(loggedIn := Some(VBool(true)), username := Some(username),
                lastActivity := Some(now), loginTime := Some(now)))
    else (false, s)
  }

  /** `logout`: `session_unset()` empties every key. */
  function Logout(s: HttpSession): (r: HttpSession)
    ensures !LoggedInFlag(r) && r.loggedIn.None? && r.username.None?
    ensures r.lastActivity.None? && r.loginTime.None? && r.aiProvider.None?
    ensures r.studySession.None? && r.currentQuestion.None? && r.lastAnswer.None? && !r.hasChallengeResult
  {
    Empty
  }

  datatype Gate = Proceed(session: HttpSession) | RedirectToLogin(session: HttpSession)

  /** `requireLogin`: the page continues iff `checkLogin` holds. */
  function RequireLogin(s: HttpSession, now: int, cfg: Config): (r: Gate)
    ensures r.Proceed? <==> CheckLogin(s, now, cfg).0
    ensures r.session == CheckLogin(s, now, cfg).1
  {
    var (ok, s') := CheckLogin(s, now, cfg);
    if ok then Proceed(s') else RedirectToLogin(s')
  }

  /** `getSessionDuration`: time since login as `HH:MM`. */
  function SessionDuration(s: HttpSession, now: int): (r: string)
    ensures s.loginTime.None? ==> r == "00:00"
    ensures s.loginTime.Some? && now >= s.loginTime.value ==>
      var d := now - s.loginTime.value;
      ParseClock(r) == Some((Hours(d), Minutes(d)))
  {
    if s.loginTime.None? then "00:00" else Clock(now - s.loginTime.value)
  }

  /**
   * `sprintf('%02d:%02d', hours, minutes)`: for a non-negative duration the
   * text reads back as the whole hours and the minutes left over.
   */
  function Clock(d: int): (r: string)
    ensures d >= 0 ==> |r| >= 5 && r[|r| - 3] == ':'
    ensures d >= 0 ==> ParseClock(r) == Some((Hours(d), Minutes(d)))
  {
    var r := PadTwo(Hours(d)) + ":" + PadTwo(Minutes(d));
    if d >= 0 then
      ClockRoundTrip(Hours(d), Minutes(d));
      r
    else r
  }

  // ---------------------------------------------------------------------
  // Partners

  /** Right after a successful login the visitor passes `checkLogin` until the timeout elapses. */
  lemma LoginThenCheck(s: HttpSession, username: string, password: string, t: int, now: int, cfg: Config)
    requires username == cfg.username && password == cfg.password
    ensures var s1 := Login(s, username, password, t, cfg).1;
      CheckLogin(s1, now, cfg).0 <==> now - t <= cfg.timeout
  {
  }

  /** After logout nothing passes `checkLogin`. */
  lemma LogoutThenCheck(s: HttpSession, now: int, cfg: Config)
    ensures !CheckLogin(Logout(s), now, cfg).0
  {
  }

  /** Each successful check restarts the inactivity window. */
  lemma CheckRefreshesWindow(s: HttpSession, now: int, later: int, cfg: Config)
    requires CheckLogin(s, now, cfg).0
    ensures CheckLogin(CheckLogin(s, now, cfg).1, later, cfg).0 <==> later - now <= cfg.timeout
  {
  }

  /** Reads an `HH:MM` string back into hours and minutes. */
  function ParseClock(s: string): Option<(nat, nat)> {
    match IndexOf(s, ':')
    case None => None
    case Some(k) =>
      if AllDigits(s[..k]) && AllDigits(s[k + 1..]) then Some((ParseDigits(s[..k]), ParseDigits(s[k + 1..])))
      else None
  }

  /** Two zero-padded numbers joined by `:` read back as those numbers. */
  lemma ClockRoundTrip(h: nat, m: nat)
    ensures ParseClock(PadTwo(h) + ":" + PadTwo(m)) == Some((h, m))
  {
    PadTwoRoundTrip(h);
    PadTwoRoundTrip(m);
    var hs, ms := PadTwo(h), PadTwo(m);
    var str := hs + [':'] + ms;
    SeparatorAfterDigits(hs, ':', ms);
    assert str[..|hs|] == hs;
    assert str[|hs| + 1..] == ms;
  }
}

=== FILE: dashboard.dfy ===
/**
 * The session dashboard of sessions.php: switching to and deleting study
 * sessions the current user owns (lines 28-71), and the grouping of the
 * user's sessions by level with overall totals (lines 79-103).
 *
 * The rows come from `getUserSessionsWithProgress` and the owners from
 * `getSession(...)['user_id']`; both are inputs here.
 */
module Dashboard {
  import opened Php
  import opened SessionState

  /** The fields of a session-with-progress row the dashboard reads. */
  datatype SessionSummary = SessionSummary(id: int, difficulty: int, totalAnswers: int, correctAnswers: int)

  datatype Level = Critical | Attention | Good

  /** Levels 1-2 are critical, 3 needs attention, anything else is good. */
  function LevelOf(s: SessionSummary): (l: Level)
    ensures l == Critical <==> s.difficulty <= 2
    ensures l == Attention <==> s.difficulty == 3
    ensures l == Good <==> s.difficulty > 3
  {
    if s.difficulty <= 2 then Critical else if s.difficulty == 3 then Attention else Good
  }

  /** The sessions at one level, in their original order. */
  function AtLevel(sessions: seq<SessionSummary>, l: Level): (r: seq<SessionSummary>)
    ensures forall i :: 0 <= i < |r| ==> LevelOf(r[i]) == l
    ensures |r| <= |sessions|
  {
    if sessions == [] then []
    else (if LevelOf(sessions[0]) == l then [sessions[0]] else []) + AtLevel(sessions[1..], l)
  }

  datatype Buckets = Buckets(critical: seq<SessionSummary>, attention: seq<SessionSummary>, good: seq<SessionSummary>)

  lemma AtLevelSnoc(sessions: seq<SessionSummary>, s: SessionSummary, l: Level)
    ensures AtLevel(sessions + [s], l) == AtLevel(sessions, l) + (if LevelOf(s) == l then [s] else [])
  {
    AtLevelAppend(sessions, [s], l);
    assert AtLevel([s], l) == (if LevelOf(s) == l then [s] else []) + AtLevel([], l);
  }

  lemma {:induction false} AtLevelAppend(a: seq<SessionSummary>, b: seq<SessionSummary>, l: Level)
    ensures AtLevel(a + b, l) == AtLevel(a, l) + AtLevel(b, l)
  {
    if a == [] {
      assert a + b == b;
    } else {
      assert (a + b)[0] == a[0];
      assert (a + b)[1..] == a[1..] + b;
      AtLevelAppend(a[1..], b, l);
    }
  }

  /** The `foreach` that appends each session to the bucket of its level. */
  method GroupByLevel(sessions: seq<SessionSummary>) returns (b: Buckets)
    ensures b.critical == AtLevel(sessions, Critical)
    ensures b.attention == AtLevel(sessions, Attention)
    ensures b.good == AtLevel(sessions, Good)
  {
    b := Buckets([], [], []);
    var i := 0;
    while i < |sessions|
      invariant 0 <= i <= |sessions|
      invariant b.critical == AtLevel(sessions[..i], Critical)
      invariant b.attention == AtLevel(sessions[..i], Attention)
      invariant b.good == AtLevel(sessions[..i], Good)
    {
      var s := sessions[i];
      assert sessions[..i + 1] == sessions[..i] + [s];
      AtLevelSnoc(sessions[..i], s, Critical);
      AtLevelSnoc(sessions[..i], s, Attention);
      AtLevelSnoc(sessions[..i], s, Good);
      if s.difficulty <= 2 {
        b := b.(critical := b.critical + [s]);
      } else if s.difficulty == 3 {
        b := b.(attention := b.attention + [s]);
      } else {
        b := b.(good := b.good + [s]);
      }
      i := i + 1;
    }
    assert sessions[..|sessions|] == sessions;
  }

  /** The head of a non-empty list goes to the bucket of its level, the rest as before. */
  lemma AtLevelCons(sessions: seq<SessionSummary>, l: Level)
    requires sessions != []
    ensures multiset(AtLevel(sessions, l)) ==
      (if LevelOf(sessions[0]) == l then multiset{sessions[0]} else multiset{}) + multiset(AtLevel(sessions[1..], l))
  {
    var r := AtLevel(sessions[1..], l);
    if LevelOf(sessions[0]) == l {
      assert AtLevel(sessions, l) == [sessions[0]] + r;
    } else {
      assert AtLevel(sessions, l) == r;
    }
  }

  /** Every session lands in exactly one bucket: together the buckets hold the sessions, no more and no fewer. */
  lemma {:induction false} BucketsPartition(sessions: seq<SessionSummary>)
    ensures multiset(AtLevel(sessions, Critical)) + multiset(AtLevel(sessions, Attention)) + multiset(AtLevel(sessions, Good))
            == multiset(sessions)
  {
    if sessions != [] {
      var s, rest := sessions[0], sessions[1..];
      BucketsPartition(rest);
      assert multiset(sessions) == multiset{s} + multiset(rest) by {
        assert sessions == [s] + rest;
      }
      AtLevelCons(sessions, Critical);
      AtLevelCons(sessions, Attention);
      AtLevelCons(sessions, Good);
    }
  }

  /** Hence the bucket sizes add up to the number of sessions. */
  lemma BucketSizes(sessions: seq<SessionSummary>)
    ensures |AtLevel(sessions, Critical)| + |AtLevel(sessions, Attention)| + |AtLevel(sessions, Good)| == |sessions|
  {
    BucketsPartition(sessions);
    var c, a, g := AtLevel(sessions, Critical), AtLevel(sessions, Attention), AtLevel(sessions, Good);
    assert |multiset(c) + multiset(a) + multiset(g)| == |c| + |a| + |g|;
  }

  // ---------------------------------------------------------------------
  // Totals

  function SumTotals(sessions: seq<SessionSummary>): int {
    if sessions == [] then 0 else sessions[0].totalAnswers + SumTotals(sessions[1..])
  }

  function SumCorrect(sessions: seq<SessionSummary>): int {
    if sessions == [] then 0 else sessions[0].correctAnswers + SumCorrect(sessions[1..])
  }

  datatype Stats = Stats(totalSessions: int, totalQuestions: int, totalCorrect: int, avgPercentage: real)

  /**
   * The question and correct totals are the column sums, and equally the
   * sums over the three level buckets.
   */
  predicate SummedTotals(sessions: seq<SessionSummary>, questions: int, correct: int) {
    && questions == SumTotals(sessions) && correct == SumCorrect(sessions)
    && questions == SumTotals(AtLevel(sessions, Critical)) + SumTotals(AtLevel(sessions, Attention))
                    + SumTotals(AtLevel(sessions, Good))
    && correct == SumCorrect(AtLevel(sessions, Critical)) + SumCorrect(AtLevel(sessions, Attention))
                  + SumCorrect(AtLevel(sessions, Good))
  }

  /** The aggregate figures over a learner's sessions. */
  function Statistics(sessions: seq<SessionSummary>): (r: Stats)
    ensures r.totalSessions == |sessions|
    ensures SummedTotals(sessions, r.totalQuestions, r.totalCorrect)
    ensures r.totalQuestions <= 0 ==> r.avgPercentage == 0.0
    ensures r.totalQuestions > 0 ==>
      var exact := (r.totalCorrect as real / r.totalQuestions as real) * 100.0;
      exact - 0.05 <= r.avgPercentage <= exact + 0.05
    ensures (r.avgPercentage * 10.0).Floor as real == r.avgPercentage * 10.0
  {
    var q := SumTotals(sessions);
    var c := SumCorrect(sessions);
    BucketTotals(sessions);
    Stats(|sessions|, q, c, Percent1(c, q))
  }

  lemma AtLevelConsSums(sessions: seq<SessionSummary>, l: Level)
    requires sessions != []
    ensures var s := sessions[0];
      && SumTotals(AtLevel(sessions, l)) == (if LevelOf(s) == l then s.totalAnswers else 0) + SumTotals(AtLevel(sessions[1..], l))
      && SumCorrect(AtLevel(sessions, l)) == (if LevelOf(s) == l then s.correctAnswers else 0) + SumCorrect(AtLevel(sessions[1..], l))
  {
    var s, r := sessions[0], AtLevel(sessions[1..], l);
    if LevelOf(s) == l {
      assert AtLevel(sessions, l) == [s] + r;
      assert ([s] + r)[0] == s && ([s] + r)[1..] == r;
    } else {
      assert AtLevel(sessions, l) == r;
    }
  }

  /** The buckets split the answer counts without losing or double-counting any. */
  lemma {:induction false} BucketTotals(sessions: seq<SessionSummary>)
    ensures SumTotals(AtLevel(sessions, Critical)) + SumTotals(AtLevel(sessions, Attention)) + SumTotals(AtLevel(sessions, Good))
            == SumTotals(sessions)
    ensures SumCorrect(AtLevel(sessions, Critical)) + SumCorrect(AtLevel(sessions, Attention)) + SumCorrect(AtLevel(sessions, Good))
            == SumCorrect(sessions)
  {
    if sessions != [] {
      BucketTotals(sessions[1..]);
      AtLevelConsSums(sessions, Critical);
      AtLevelConsSums(sessions, Attention);
      AtLevelConsSums(sessions, Good);
    }
  }

  /** Rows whose counters are consistent. */
  predicate Consistent(s: SessionSummary) {
    0 <= s.correctAnswers <= s.totalAnswers
  }

  lemma {:induction false} SumsConsistent(sessions: seq<SessionSummary>)
    requires forall i :: 0 <= i < |sessions| ==> Consistent(sessions[i])
    ensures 0 <= SumCorrect(sessions) <= SumTotals(sessions)
  {
    if sessions != [] {
      SumsConsistent(sessions[1..]);
    }
  }

  /** With consistent rows the average is a percentage between 0 and 100. */
  lemma AverageIsPercentage(sessions: seq<SessionSummary>)
    requires forall i :: 0 <= i < |sessions| ==> Consistent(sessions[i])
    ensures 0.0 <= Statistics(sessions).avgPercentage <= 100.0
  {
    SumsConsistent(sessions);
  }

  // ---------------------------------------------------------------------
  // Switching and deleting sessions

  datatype DashError = NotFoundOrForbidden

  /** `select_session`: only an existing session of the current user may become active. */
  function SelectSession(http: HttpSession, owners: map<int, int>, posted: Option<int>, userId: int): (r: Result<HttpSession, DashError>)
    ensures posted.None? ==> r == Success(http)
    ensures posted.Some? ==> (r.Success? <==> posted.value in owners && owners[posted.value] == userId)
    ensures posted.Some? && r.Success? ==>
      r.value == http.(studySession := posted, currentQuestion := None, lastAnswer := None, hasChallengeResult := false)
  {
    match posted
    case None => Success(http)
    case Some(sid) =>
      if sid in owners && owners[sid] == userId then Success(ClearStudy(http).(studySession := Some(sid)))
      else Failure(NotFoundOrForbidden)
  }

  /** The session state after `delete_session`, and the session handed to `deleteSession`, if any. */
  datatype Deletion = Deletion(http: HttpSession, deleted: Option<int>)

  /** `delete_session`: only the owner deletes, and the study keys go only if it was the active session. */
  function DeleteSession(http: HttpSession, owners: map<int, int>, posted: Option<int>, userId: int): (r: Result<Deletion, DashError>)
    ensures posted.None? ==> r == Success(Deletion(http, None))
    ensures posted.Some? ==> (r.Success? <==> posted.value in owners && owners[posted.value] == userId)
    ensures r.Success? && posted.Some? ==> r.value.deleted == posted
    ensures r.Success? && posted.Some? && http.studySession == posted ==>
      r.value.http == ClearStudy(http).(studySession := None)
    ensures r.Success? && http.studySession != posted ==> r.value.http == http
  {
    match posted
    case None => Success(Deletion(http, None))
    case Some(sid) =>
      if sid in owners && owners[sid] == userId then
        var http' := if http.studySession == Some(sid) then ClearStudy(http).(studySession := None) else http;
        Success(Deletion(http', Some(sid)))
      else Failure(NotFoundOrForbidden)
  }

  /** Switching to a session another user owns never changes what the learner is studying. */
  lemma ForeignSessionUntouchable(http: HttpSession, owners: map<int, int>, sid: int, userId: int)
    requires sid in owners && owners[sid] != userId
    ensures SelectSession(http, owners, Some(sid), userId).Failure?
    ensures DeleteSession(http, owners, Some(sid), userId).Failure?
  {
  }
}

=== FILE: dispute.dfy ===
/**
 * The answer-key dispute pipeline of challenge_agent.php. A learner's
 * challenge passes an admission check against the per-question limit, is
 * recorded, backed by a web search, judged by the text-generation service,
 * gated on confidence, finalised, and - only when accepted - applied to the
 * question, after which the progress of every affected learner is
 * recomputed.
 *
 * The store methods the pipeline calls beyond `getQuestion` are not part of
 * this model: each call is recorded in a trace (`Call`) and its reply, like
 * the replies of the search and text-generation services, is an input
 * (`Oracle`).
 *
 * Here a char is one Unicode code point, so the `/u` query filter keeps an
 * accented letter whole; the length cuts count code points too.
 */
module Dispute {
  import opened Php
  import opened Store

  /** Adjudications below this confidence are rejected whatever they say. */
  const ConfidenceThreshold: real := 0.7
  const Accepted := "accepted"
  const Rejected := "rejected"

  const StatementLimit := 200
  const ArgumentLimit := 100
  const AllowedDepths := ["basic", "advanced", "fast", "ultra-fast"]
  const DefaultDepth := "basic"
  const DefaultMaxResults := 5
  const MaxResultsCeiling := 20
  const UntitledSource := "Sem título"
  const ContentExcerpt := 500

  // ---------------------------------------------------------------------
  // Search query

  /**
   * `\s` under the `u` flag: the ASCII spaces and controls tab to carriage
   * return, the Unicode separators, and the further horizontal and vertical
   * spaces PCRE lists.
   */
  predicate IsSpace(c: char) {
    || '\t' <= c <= '\r' || c == ' ' || c == '\U{0085}' || c == '\U{00A0}'
    || c == '\U{1680}' || c == '\U{180E}' || '\U{2000}' <= c <= '\U{200A}'
    || c == '\U{2028}' || c == '\U{2029}' || c == '\U{202F}' || c == '\U{205F}' || c == '\U{3000}'
  }

  /**
   * `\w` under the `u` flag, up to U+024F: `_`, the ASCII letters and digits,
   * the letters and number signs of Latin-1 (`ª`, `²`, `³`, `µ`, `¹`, `º`,
   * `¼`-`¾`, `À`-`ÿ` without `×` and `÷`) and every letter of Latin
   * Extended-A and -B.
   */
  predicate LatinWordChar(c: char) {
    || 'a' <= c <= 'z' || 'A' <= c <= 'Z' || '0' <= c <= '9' || c == '_'
    || c == '\U{00AA}' || c == '\U{00B2}' || c == '\U{00B3}' || c == '\U{00B5}'
    || c == '\U{00B9}' || c == '\U{00BA}' || '\U{00BC}' <= c <= '\U{00BE}'
    || '\U{00C0}' <= c <= '\U{00D6}' || '\U{00D8}' <= c <= '\U{00F6}' || '\U{00F8}' <= c <= '\U{024F}'
  }

  /**
   * Word characters, whitespace and `-`. The accented letters the pattern
   * lists are Latin-1 letters, so `\w` already keeps them.
   */
  predicate KeptInQuery(c: char) {
    LatinWordChar(c) || IsSpace(c) || c == '-'
  }

  /** `preg_replace('/[^\w\s\-áéíóúâêôãõç]/ui', '', $s)`. */
  function Sanitize(s: string): (r: string)
    ensures forall i :: 0 <= i < |r| ==> KeptInQuery(r[i])
    ensures forall c :: c in r <==> c in s && KeptInQuery(c)
    ensures |r| <= |s|
  {
    if s == [] then ""
    else (if KeptInQuery(s[0]) then [s[0]] else "") + Sanitize(s[1..])
  }

  /** Sanitising works piecewise, so kept characters stay in their order. */
  lemma {:induction false} SanitizeAppend(a: string, b: string)
    ensures Sanitize(a + b) == Sanitize(a) + Sanitize(b)
  {
    if a == [] {
      assert a + b == b;
    } else {
      assert (a + b)[0] == a[0];
      assert (a + b)[1..] == a[1..] + b;
      SanitizeAppend(a[1..], b);
    }
  }

  /** Text made only of kept characters is left as it is. */
  lemma {:induction false} SanitizeClean(s: string)
    requires forall i :: 0 <= i < |s| ==> KeptInQuery(s[i])
    ensures Sanitize(s) == s
  {
    if s != [] {
      SanitizeClean(s[1..]);
    }
  }

  /** Sanitising twice is sanitising once. */
  lemma {:induction false} SanitizeIdempotent(s: string)
    ensures Sanitize(Sanitize(s)) == Sanitize(s)
  {
    SanitizeClean(Sanitize(s));
  }

  /** A single character is kept exactly when the filter admits it. */
  lemma SanitizeOne(c: char)
    ensures Sanitize([c]) == if KeptInQuery(c) then [c] else []
  {
    assert [c][1..] == [];
  }

  /**
   * Portuguese and other Latin letters, Unicode spaces and superscript
   * digits survive; punctuation and the multiplication sign do not.
   */
  lemma SanitizeKeepsLatinText()
    ensures KeptInQuery('à') && KeptInQuery('À') && KeptInQuery('ñ') && KeptInQuery('ü') && KeptInQuery('²')
    ensures KeptInQuery('\U{00A0}') && KeptInQuery('\U{2003}')
    ensures !KeptInQuery('×') && !KeptInQuery('÷') && !KeptInQuery('?')
  {
  }

  /** `substr($s, 0, $n)`. */
  function Truncate(s: string, n: nat): (r: string)
    ensures |r| == if |s| <= n then |s| else n
    ensures r == s[..|r|]
  {
    if |s| <= n then s else s[..n]
  }

  /** `buildSearchQuery`: sanitised, truncated statement and argument joined by one space. */
  function BuildSearchQuery(statement: string, argument: string): (r: string)
    ensures |r| <= StatementLimit + 1 + ArgumentLimit
    ensures var k := |Truncate(Sanitize(statement), StatementLimit)|;
      && k <= StatementLimit && k < |r| && r[k] == ' '
      && r[..k] == Sanitize(statement)[..k]
      && var ka := |Truncate(Sanitize(argument), ArgumentLimit)|;
      && |r| == k + 1 + ka
      && r[k + 1..] == Sanitize(argument)[..ka]
    ensures forall i :: 0 <= i < |r| ==> KeptInQuery(r[i])
  {
    Truncate(Sanitize(statement), StatementLimit) + " " + Truncate(Sanitize(argument), ArgumentLimit)
  }

  /** A short, clean statement and argument reach the search engine unchanged. */
  lemma CleanShortQueryUnchanged(statement: string, argument: string)
    requires forall i :: 0 <= i < |statement| ==> KeptInQuery(statement[i])
    requires forall i :: 0 <= i < |argument| ==> KeptInQuery(argument[i])
    requires |statement| <= StatementLimit && |argument| <= ArgumentLimit
    ensures BuildSearchQuery(statement, argument) == statement + " " + argument
  {
    SanitizeClean(statement);
    SanitizeClean(argument);
  }

  // ---------------------------------------------------------------------
  // Search parameters

  /** The configured depth if it is one the search service accepts, else `basic`. */
  function ClampDepth(configured: string): (r: string)
    ensures r in AllowedDepths
    ensures configured in AllowedDepths ==> r == configured
    ensures configured !in AllowedDepths ==> r == DefaultDepth
  {
    if configured in AllowedDepths then configured else DefaultDepth
  }

  /** The configured result count if it lies in 0..20, else 5. */
  function ClampMaxResults(configured: int): (r: int)
    ensures 0 <= r <= MaxResultsCeiling
    ensures 0 <= configured <= MaxResultsCeiling ==> r == configured
    ensures !(0 <= configured <= MaxResultsCeiling) ==> r == DefaultMaxResults
  {
    if configured < 0 || configured > MaxResultsCeiling then DefaultMaxResults else configured
  }

  // ---------------------------------------------------------------------
  // Search results

  /** One decoded entry of the search reply's `results`; absent fields are None. */
  datatype RawResult = RawResult(title: Option<string>, url: Option<string>, content: Option<string>, score: Option<real>)

  /** The decoded search reply: `results` and the synthesised `answer`, each possibly absent. */
  datatype SearchReply = SearchReply(results: Option<seq<RawResult>>, answer: Option<string>)

  /** The outcome of the HTTP request to the search service. */
  datatype SearchResponse = CurlError | HttpReply(status: int, body: SearchReply)

  datatype Source = Source(title: string, url: string, content: string, score: real)

  /** An element of the `$sources` array: a numbered source, or the summary under `tavily_answer`. */
  datatype Entry = SourceEntry(key: nat, source: Source) | SummaryEntry(text: string)

  function OrElse<T>(o: Option<T>, default: T): (r: T)
    ensures o.Some? ==> r == o.value
    ensures o.None? ==> r == default
  {
    if o.Some? then o.value else default
  }

  function NormalizeResult(item: RawResult): Source {
    Source(OrElse(item.title, UntitledSource), OrElse(item.url, ""), OrElse(item.content, ""), OrElse(item.score, 0.0))
  }

  function NormalizeResults(items: seq<RawResult>, firstKey: nat): (r: seq<Entry>)
    ensures |r| == |items|
    ensures forall i :: 0 <= i < |r| ==> r[i] == SourceEntry(firstKey + i, NormalizeResult(items[i]))
  {
    if items == [] then []
    else [SourceEntry(firstKey, NormalizeResult(items[0]))] + NormalizeResults(items[1..], firstKey + 1)
  }

  /** The source list built from a successful search reply. */
  function Normalize(reply: SearchReply): (r: seq<Entry>)
    ensures var n := if reply.results.Some? then |reply.results.value| else 0;
      && |r| == n + (if reply.answer.Some? then 1 else 0)
      && (forall i :: 0 <= i < n ==> r[i].SourceEntry? && r[i].key == i)
      && (reply.answer.Some? ==> r[n] == SummaryEntry(reply.answer.value))
    ensures forall i :: 0 <= i < |r| && r[i].SourceEntry? ==>
      var item := reply.results.value[i];
      && r[i].source.title == (if item.title.Some? then item.title.value else UntitledSource)
      && r[i].source.url == (if item.url.Some? then item.url.value else "")
      && r[i].source.content == (if item.content.Some? then item.content.value else "")
      && r[i].source.score == (if item.score.Some? then item.score.value else 0.0)
  {
    var items := if reply.results.Some? then NormalizeResults(reply.results.value, 0) else [];
    items + (if reply.answer.Some? then [SummaryEntry(reply.answer.value)] else [])
  }

  // ---------------------------------------------------------------------
  // Formatting the sources for the adjudicator

  /** `isset($webSources['tavily_answer'])`. */
  function Summary(entries: seq<Entry>): (r: Option<string>)
    ensures r.Some? <==> exists i :: 0 <= i < |entries| && entries[i].SummaryEntry?
  {
    if entries == [] then None
    else if entries[0].SummaryEntry? then Some(entries[0].text)
    else
      var rest := Summary(entries[1..]);
      assert forall i :: 1 <= i < |entries| ==> entries[i] == entries[1..][i - 1];
      rest
  }

  /**
   * The pieces of the text given to the adjudicator as evidence: the
   * summary, the heading of the detailed list, and one block per source
   * carrying its number, the first 500 characters of its content and its
   * score as a rounded percentage.
   */
  datatype ContextPart =
    | SummaryPart(text: string)
    | DetailsHeading
    | SourcePart(number: nat, title: string, url: string, excerpt: string, relevance: int)

  function SourcePartFor(n: nat, s: Source): ContextPart {
    SourcePart(n, s.title, s.url, Truncate(s.content, ContentExcerpt), Round(s.score * 100.0))
  }

  /** The sources of a list, summary left out, in order. */
  function SourcesOf(entries: seq<Entry>): (r: seq<Source>)
    ensures |r| <= |entries|
  {
    if entries == [] then []
    else (if entries[0].SourceEntry? then [entries[0].source] else []) + SourcesOf(entries[1..])
  }

  /** The sources as blocks, numbered from `first` on. */
  function Numbered(sources: seq<Source>, first: nat): (r: seq<ContextPart>)
    ensures |r| == |sources|
  {
    if sources == [] then [] else [SourcePartFor(first, sources[0])] + Numbered(sources[1..], first + 1)
  }

  function FormatHeader(entries: seq<Entry>): seq<ContextPart> {
    (match Summary(entries)
     case Some(t) => [SummaryPart(t)]
     case None => [])
    + [DetailsHeading]
  }

  lemma {:induction false} SourcesOfAppend(a: seq<Entry>, b: seq<Entry>)
    ensures SourcesOf(a + b) == SourcesOf(a) + SourcesOf(b)
  {
    if a == [] {
      assert a + b == b;
    } else {
      assert (a + b)[0] == a[0];
      assert (a + b)[1..] == a[1..] + b;
      SourcesOfAppend(a[1..], b);
    }
  }

  lemma {:induction false} NumberedAppend(a: seq<Source>, s: Source, first: nat)
    ensures Numbered(a + [s], first) == Numbered(a, first) + [SourcePartFor(first + |a|, s)]
  {
    if a == [] {
      assert a + [s] == [s];
    } else {
      assert (a + [s])[1..] == a[1..] + [s];
      NumberedAppend(a[1..], s, first + 1);
    }
  }

  /** One more entry adds one numbered block if it is a source and nothing if it is the summary. */
  lemma NumberedStep(entries: seq<Entry>, i: nat)
    requires i < |entries|
    ensures |SourcesOf(entries[..i + 1])| == |SourcesOf(entries[..i])| + (if entries[i].SourceEntry? then 1 else 0)
    ensures Numbered(SourcesOf(entries[..i + 1]), 1) ==
      Numbered(SourcesOf(entries[..i]), 1)
      + (if entries[i].SourceEntry? then [SourcePartFor(1 + |SourcesOf(entries[..i])|, entries[i].source)] else [])
  {
    assert entries[..i + 1] == entries[..i] + [entries[i]];
    SourcesOfAppend(entries[..i], [entries[i]]);
    assert SourcesOf([entries[i]]) == (if entries[i].SourceEntry? then [entries[i].source] else []) + SourcesOf([]);
    if entries[i].SourceEntry? {
      assert SourcesOf(entries[..i + 1]) == SourcesOf(entries[..i]) + [entries[i].source];
      NumberedAppend(SourcesOf(entries[..i]), entries[i].source, 1);
    } else {
      assert SourcesOf(entries[..i + 1]) == SourcesOf(entries[..i]);
    }
  }

  /**
   * `formatWebSourcesForAI`: the summary first if there is one, then every
   * source - the summary entry skipped - numbered consecutively from 1.
   */
  method FormatWebSources(entries: seq<Entry>) returns (out: seq<ContextPart>)
    ensures out == Evidence(entries)
  {
    var header := FormatHeader(entries);
    out := header;
    var index := 1;
    var i := 0;
    while i < |entries|
      invariant 0 <= i <= |entries|
      invariant index == 1 + |SourcesOf(entries[..i])|
      invariant out == header + Numbered(SourcesOf(entries[..i]), 1)
    {
      NumberedStep(entries, i);
      if entries[i].SourceEntry? {
        var block := [SourcePartFor(index, entries[i].source)];
        assert out + block == header + (Numbered(SourcesOf(entries[..i]), 1) + block);
        out := out + block;
        index := index + 1;
      } else {
        assert Numbered(SourcesOf(entries[..i]), 1) + [] == Numbered(SourcesOf(entries[..i]), 1);
      }
      i := i + 1;
    }
    assert entries[..|entries|] == entries;
  }

  /** The sources of a normalised reply are exactly its results, and the summary is never numbered. */
  lemma {:induction false} NormalizedSourcesAreResults(items: seq<RawResult>, firstKey: nat)
    ensures SourcesOf(NormalizeResults(items, firstKey)) == seq(|items|, i requires 0 <= i < |items| => NormalizeResult(items[i]))
  {
    if items != [] {
      NormalizedSourcesAreResults(items[1..], firstKey + 1);
      var r := NormalizeResults(items, firstKey);
      assert r[1..] == NormalizeResults(items[1..], firstKey + 1);
    }
  }

  lemma SummaryIsNotASource(entries: seq<Entry>, text: string)
    ensures SourcesOf(entries + [SummaryEntry(text)]) == SourcesOf(entries)
  {
    SourcesOfAppend(entries, [SummaryEntry(text)]);
    assert SourcesOf([SummaryEntry(text)]) == [];
  }

  // ---------------------------------------------------------------------
  // Decision

  /**
   * A scalar the decoded reply may carry under `confidence`. JSON `null` and
   * an absent key are both `None`, since `??` treats them alike.
   */
  datatype Score = Number(x: real) | Flag(b: bool) | Text(s: string)

  /** The adjudicator's decoded reply; `decision` absent means the reply was unusable. */
  datatype AiReply = AiReply(
    decision: Option<string>,
    confidence: Option<Score>,
    analysis: Option<string>,
    suggestedAnswer: Option<Value>,
    updatedExplanation: Option<string>)

  /** `makeDecision`'s result: the final decision and, when accepted, the correction. */
  datatype Verdict = Verdict(decision: string, analysis: Option<string>, suggestedAnswer: Option<Value>, updatedExplanation: Option<string>)

  /** `(string)0.7`, the text a non-numeric string is compared with. */
  const ThresholdText := "0.7"

  /** Byte-wise `strcmp(a, b) < 0`. */
  function TextBefore(a: string, b: string): (r: bool)
    ensures a == [] ==> (r <==> b != [])
    ensures a != [] && b != [] && a[0] != b[0] ==> (r <==> a[0] < b[0])
  {
    if a == [] then b != []
    else if b == [] then false
    else if a[0] != b[0] then a[0] < b[0]
    else TextBefore(a[1..], b[1..])
  }

  /** No text comes before itself. */
  lemma {:induction false} TextBeforeIrreflexive(a: string)
    ensures !TextBefore(a, a)
  {
    if a != [] {
      TextBeforeIrreflexive(a[1..]);
    }
  }

  function Pow10(n: nat): (r: nat)
    ensures r >= 1
  {
    if n == 0 then 1 else 10 * Pow10(n - 1)
  }

  /**
   * The value of a plain decimal numeral `ddd`, `ddd.ddd`, `ddd.` or `.ddd`
   * (at least one digit), or None when the text is not one.
   */
  function DecimalValue(s: string): (r: Option<real>)
    ensures r.Some? ==> r.value >= 0.0
    ensures AllDigits(s) && s != [] ==> r == Some(ParseDigits(s) as real)
  {
    match IndexOf(s, '.')
    case None => if AllDigits(s) && s != [] then Some(ParseDigits(s) as real) else None
    case Some(k) =>
      var whole, fraction := s[..k], s[k + 1..];
      if AllDigits(whole) && AllDigits(fraction) && |whole| + |fraction| > 0
      then Some(ParseDigits(whole) as real + ParseDigits(fraction) as real / Pow10(|fraction|) as real)
      else None
  }

  /**
   * PHP 8's `$confidence < 0.7` on whatever the reply carried: numbers and
   * numeric text compare as numbers, a boolean compares with `0.7` taken as
   * `true`, and other text compares with the text "0.7".
   */
  function BelowThreshold(confidence: Option<Score>): (r: bool)
    ensures confidence.None? ==> r
    ensures confidence.Some? && confidence.value.Number? ==> (r <==> confidence.value.x < ConfidenceThreshold)
    ensures confidence.Some? && confidence.value.Flag? ==> (r <==> !confidence.value.b)
    ensures confidence.Some? && confidence.value.Text? && DecimalValue(confidence.value.s).None? ==>
      (r <==> TextBefore(confidence.value.s, ThresholdText))
  {
    match confidence
    case None => 0.0 < ConfidenceThreshold
    case Some(Number(x)) => x < ConfidenceThreshold
    case Some(Flag(b)) => !b  // only `false < true` holds
    case Some(Text(s)) =>
      match DecimalValue(s)
      case Some(x) => x < ConfidenceThreshold
      case None => TextBefore(s, ThresholdText)
  }

  /** `makeDecision`: the confidence gate. */
  function MakeDecision(reply: AiReply): (v: Verdict)
    requires reply.decision.Some?
    ensures BelowThreshold(reply.confidence) ==> v.decision == Rejected
    ensures !BelowThreshold(reply.confidence) ==> v.decision == reply.decision.value
    ensures v.decision == Accepted ==> v.suggestedAnswer == reply.suggestedAnswer && v.updatedExplanation == reply.updatedExplanation
    ensures v.decision != Accepted ==> v.suggestedAnswer.None? && v.updatedExplanation.None?
    ensures v.analysis == reply.analysis
  {
    var decision := if BelowThreshold(reply.confidence) then Rejected else reply.decision.value;
    if decision == Accepted then Verdict(decision, reply.analysis, reply.suggestedAnswer, reply.updatedExplanation)
    else Verdict(decision, reply.analysis, None, None)
  }

  /** Acceptance needs both the adjudicator's acceptance and a confidence that is not below 0.7. */
  lemma AcceptedIffConfidentAcceptance(reply: AiReply)
    requires reply.decision.Some?
    ensures MakeDecision(reply).decision == Accepted <==>
      reply.decision.value == Accepted && !BelowThreshold(reply.confidence)
  {
  }

  /** A missing confidence, `false`, or a number or numeral below 0.7 always means rejection. */
  lemma LowConfidenceRejects(reply: AiReply, x: real)
    requires reply.decision.Some?
    requires reply.confidence in {None, Some(Flag(false)), Some(Number(x)), Some(Text(NatToString(0)))}
    requires reply.confidence == Some(Number(x)) ==> x < ConfidenceThreshold
    ensures MakeDecision(reply).decision == Rejected
  {
  }

  /**
   * A confidence of `true`, or a word that sorts after "0.7" such as
   * "high", is not below 0.7 in PHP 8, so an acceptance carrying it passes
   * the gate.
   */
  lemma NonNumericConfidencePasses(reply: AiReply)
    requires reply.decision == Some(Accepted)
    requires reply.confidence == Some(Flag(true)) || reply.confidence == Some(Text("high"))
    ensures MakeDecision(reply).decision == Accepted
  {
    if reply.confidence == Some(Text("high")) {
      assert IndexOf("high", '.') == None;
      assert !IsDigit('h');
    }
  }

  // ---------------------------------------------------------------------
  // The pipeline

  /** One row of `getUsersAffectedByQuestion`. */
  datatype Affected = Affected(userId: int, sessionId: int)

  /** The calls the pipeline makes to collaborators, in the order it makes them. */
  datatype Call =
    | CountChallenges(questionId: int)
    | CreateChallenge(questionId: int, userId: int, argument: string, originalAnswer: int, originalExplanation: string)
    | WebSearch(query: string, depth: string, maxResults: int)
    | AskAdjudicator(statement: string, answerKey: int, explanation: string, keyConcept: string,
                     argument: string, webContext: seq<ContextPart>)
    | UpdateChallenge(challengeId: int, analysis: Option<string>, sources: seq<Entry>, decision: string,
                      suggestedAnswer: Option<Value>, updatedExplanation: Option<string>)
    | UpdateQuestionAfterChallenge(questionId: int, suggestedAnswer: Option<Value>, updatedExplanation: Option<string>)
    | ListAffected(questionId: int)
    | RecalculateUserProgress(userId: int, sessionId: int)

  /** What the collaborators answer: the challenge count, the new challenge's id, the search and AI replies (None: the call failed), and the affected rows. */
  datatype Oracle = Oracle(
    challengeCount: int,
    challengeId: int,
    search: SearchResponse,
    ai: Option<AiReply>,
    affected: seq<Affected>)

  datatype Config = Config(apiKey: string, maxChallenges: int, searchDepth: string, maxResults: int)

  datatype ChallengeError = MissingApiKey | QuestionNotFound | LimitReached | SearchFailed | AnalysisFailed

  /** The array `processChallenge` returns. */
  datatype ChallengeOutcome = ChallengeOutcome(
    challengeId: int,
    decision: string,
    analysis: Option<string>,
    sources: seq<Entry>,
    updatedAnswer: Option<Value>,
    updatedExplanation: Option<string>)

  datatype Run = Run(calls: seq<Call>, result: Result<ChallengeOutcome, ChallengeError>)

  function Recalculations(affected: seq<Affected>): (r: seq<Call>)
    ensures |r| == |affected|
    ensures forall i :: 0 <= i < |r| ==> r[i] == RecalculateUserProgress(affected[i].userId, affected[i].sessionId)
  {
    if affected == [] then []
    else [RecalculateUserProgress(affected[0].userId, affected[0].sessionId)] + Recalculations(affected[1..])
  }

  /** `recalculateAffectedUsers`: list the affected rows, then recompute each one. */
  function RecalculateAffectedUsers(questionId: int, affected: seq<Affected>): (r: seq<Call>)
    ensures |r| == 1 + |affected|
    ensures r[0] == ListAffected(questionId)
    ensures forall i :: 0 <= i < |affected| ==> r[i + 1] == RecalculateUserProgress(affected[i].userId, affected[i].sessionId)
  {
    [ListAffected(questionId)] + Recalculations(affected)
  }

  /** `searchWebWithTavily`: the request sent and the normalised sources, or None when the call failed. */
  function SearchWeb(statement: string, argument: string, cfg: Config, response: SearchResponse): (r: (Call, Option<seq<Entry>>))
    ensures r.0 == WebSearch(BuildSearchQuery(statement, argument), ClampDepth(cfg.searchDepth), ClampMaxResults(cfg.maxResults))
    ensures r.1.Some? <==> response.HttpReply? && response.status == 200
    ensures r.1.Some? ==> r.1.value == Normalize(response.body)
  {
    var call := WebSearch(BuildSearchQuery(statement, argument), ClampDepth(cfg.searchDepth), ClampMaxResults(cfg.maxResults));
    match response
    case CurlError => (call, None)
    case HttpReply(status, body) => if status != 200 then (call, None) else (call, Some(Normalize(body)))
  }

  /**
   * The steps after a usable adjudication: gate the decision, finalise the
   * challenge record once, and - only on acceptance - correct the question
   * and recompute every affected learner.
   */
  function Conclude(questionId: int, before: seq<Call>, challengeId: int, webSources: seq<Entry>,
                    reply: AiReply, affected: seq<Affected>): (r: Run)
    requires reply.decision.Some?
    ensures r.result.Success?
    ensures r.result.value == ChallengeOutcome(challengeId, MakeDecision(reply).decision, reply.analysis, webSources,
                                               MakeDecision(reply).suggestedAnswer, MakeDecision(reply).updatedExplanation)
    ensures |r.calls| >= |before| + 1 && r.calls[..|before|] == before
    ensures r.calls[|before|] == UpdateChallenge(challengeId, reply.analysis, webSources, r.result.value.decision,
                                                 r.result.value.updatedAnswer, r.result.value.updatedExplanation)
    ensures r.result.value.decision == Accepted ==>
      r.calls[|before| + 1..] == [UpdateQuestionAfterChallenge(questionId, r.result.value.updatedAnswer, r.result.value.updatedExplanation)]
                                 + RecalculateAffectedUsers(questionId, affected)
    ensures r.result.value.decision != Accepted ==> |r.calls| == |before| + 1
  {
    var verdict := MakeDecision(reply);
    var finalised := before + [UpdateChallenge(challengeId, reply.analysis, webSources, verdict.decision,
                                               verdict.suggestedAnswer, verdict.updatedExplanation)];
    var outcome := ChallengeOutcome(challengeId, verdict.decision, reply.analysis, webSources,
                                    verdict.suggestedAnswer, verdict.updatedExplanation);
    if verdict.decision == Accepted then
      var propagation := [UpdateQuestionAfterChallenge(questionId, verdict.suggestedAnswer, verdict.updatedExplanation)]
                         + RecalculateAffectedUsers(questionId, affected);
      assert (finalised + propagation)[|before| + 1..] == propagation;
      Run(finalised + propagation, Success(outcome))
    else
      Run(finalised, Success(outcome))
  }

  /** The search went through: no transport error and HTTP 200. */
  predicate SearchOk(response: SearchResponse) {
    response.HttpReply? && response.status == 200
  }

  /** The adjudicator answered with a decoded reply that carries a `decision`. */
  predicate Usable(ai: Option<AiReply>) {
    ai.Some? && ai.value.decision.Some?
  }

  /** The evidence block sent to the adjudicator for a list of sources. */
  function Evidence(entries: seq<Entry>): seq<ContextPart> {
    FormatHeader(entries) + Numbered(SourcesOf(entries), 1)
  }

  /** The adjudication step of `processChallenge`, once the sources are in: ask, then conclude. */
  method Adjudicate(questionId: int, q: QuestionRow, argument: string, before: seq<Call>, webSources: seq<Entry>, o: Oracle)
    returns (r: Run)
    requires |before| == 3
    ensures |r.calls| >= 4 && r.calls[..3] == before
    ensures r.calls[3] == AskAdjudicator(q.statement, q.correctAnswer, q.explanation, q.keyConcept, argument, Evidence(webSources))
    ensures r.result == Failure(AnalysisFailed) <==> !Usable(o.ai)
    ensures r.result.Success? <==> Usable(o.ai)
    ensures r.result.Failure? ==> |r.calls| == 4
    ensures r.result.Success? ==>
      && |r.calls| >= 5
      && r.calls[4] == UpdateChallenge(o.challengeId, r.result.value.analysis, r.result.value.sources, r.result.value.decision,
                                       r.result.value.updatedAnswer, r.result.value.updatedExplanation)
      && r.result.value.challengeId == o.challengeId
      && r.result.value.sources == webSources
      && r.result.value.decision == MakeDecision(o.ai.value).decision
      && r.result.value.updatedAnswer == MakeDecision(o.ai.value).suggestedAnswer
    ensures r.result.Success? && r.result.value.decision == Accepted ==>
      r.calls[5..] == [UpdateQuestionAfterChallenge(questionId, r.result.value.updatedAnswer, r.result.value.updatedExplanation)]
                      + RecalculateAffectedUsers(questionId, o.affected)
    ensures r.result.Success? && r.result.value.decision != Accepted ==> |r.calls| == 5
  {
    var webContext := FormatWebSources(webSources);
    var ask := AskAdjudicator(q.statement, q.correctAnswer, q.explanation, q.keyConcept, argument, webContext);
    if o.ai.None? || o.ai.value.decision.None? {
      r := Run(before + [ask], Failure(AnalysisFailed));
      assert r.calls[..3] == before;
      return;
    }
    r := Conclude(questionId, before + [ask], o.challengeId, webSources, o.ai.value, o.affected);
    assert r.calls[..4] == before + [ask];
    assert r.calls[..3] == (before + [ask])[..|before|] == before;
  }

  /** The part of `processChallenge` after the challenge is recorded: evidence, adjudication, conclusion. */
  method Examine(questionId: int, q: QuestionRow, argument: string, admitted: seq<Call>, cfg: Config, o: Oracle) returns (r: Run)
    requires |admitted| == 2
    ensures |r.calls| >= 3 && r.calls[..2] == admitted
    ensures r.calls[2] == WebSearch(BuildSearchQuery(q.statement, argument), ClampDepth(cfg.searchDepth), ClampMaxResults(cfg.maxResults))
    ensures r.result == Failure(SearchFailed) <==> !SearchOk(o.search)
    ensures r.result == Failure(SearchFailed) ==> |r.calls| == 3
    ensures r.result == Failure(AnalysisFailed) <==> SearchOk(o.search) && !Usable(o.ai)
    ensures r.result.Success? <==> SearchOk(o.search) && Usable(o.ai)
    ensures SearchOk(o.search) ==>
      |r.calls| >= 4 && r.calls[3] == AskAdjudicator(q.statement, q.correctAnswer, q.explanation, q.keyConcept, argument, Evidence(Normalize(o.search.body)))
    ensures r.result.Failure? ==> r.result.error in {SearchFailed, AnalysisFailed} && |r.calls| <= 4
    ensures r.result.Success? ==>
      && |r.calls| >= 5
      && r.calls[4] == UpdateChallenge(o.challengeId, r.result.value.analysis, r.result.value.sources, r.result.value.decision,
                                       r.result.value.updatedAnswer, r.result.value.updatedExplanation)
      && r.result.value.challengeId == o.challengeId
      && r.result.value.sources == Normalize(o.search.body)
      && r.result.value.decision == MakeDecision(o.ai.value).decision
      && r.result.value.updatedAnswer == MakeDecision(o.ai.value).suggestedAnswer
    ensures r.result.Success? && r.result.value.decision == Accepted ==>
      r.calls[5..] == [UpdateQuestionAfterChallenge(questionId, r.result.value.updatedAnswer, r.result.value.updatedExplanation)]
                      + RecalculateAffectedUsers(questionId, o.affected)
    ensures r.result.Success? && r.result.value.decision != Accepted ==> |r.calls| == 5
  {
    var (searchCall, sources) := SearchWeb(q.statement, argument, cfg, o.search);
    if sources.None? {
      return Run(admitted + [searchCall], Failure(SearchFailed));
    }
    var before := admitted + [searchCall];
    r := Adjudicate(questionId, q, argument, before, sources.value, o);
    assert r.calls[..2] == before[..2] == admitted;
    assert r.calls[2] == before[2] == searchCall;
  }

  /** `empty($this->tavilyApiKey)`: an unset, empty or "0" key. */
  predicate MissingKey(cfg: Config) {
    cfg.apiKey == "" || cfg.apiKey == "0"
  }

  /** The challenge passes every check before it is recorded. */
  predicate Admitted(db: Db, questionId: int, cfg: Config, o: Oracle) {
    !MissingKey(cfg) && questionId in db.questions && o.challengeCount < cfg.maxChallenges
  }

  /** `processChallenge`. */
  method ProcessChallenge(db: Db, questionId: int, userId: int, argument: string, cfg: Config, o: Oracle) returns (r: Run)
    ensures MissingKey(cfg) ==> r == Run([], Failure(MissingApiKey))
    ensures !MissingKey(cfg) && questionId !in db.questions ==> r == Run([], Failure(QuestionNotFound))
    ensures !MissingKey(cfg) && questionId in db.questions && o.challengeCount >= cfg.maxChallenges ==>
      r == Run([CountChallenges(questionId)], Failure(LimitReached))
    ensures Admitted(db, questionId, cfg, o) ==>
      var q := db.questions[questionId];
      && |r.calls| >= 3
      && r.calls[..2] == [CountChallenges(questionId), CreateChallenge(questionId, userId, argument, q.correctAnswer, q.explanation)]
      && r.calls[2] == WebSearch(BuildSearchQuery(q.statement, argument), ClampDepth(cfg.searchDepth), ClampMaxResults(cfg.maxResults))
      && (r.result == Failure(SearchFailed) <==> !SearchOk(o.search))
    ensures r.result.Success? <==> Admitted(db, questionId, cfg, o) && SearchOk(o.search) && Usable(o.ai)
    ensures r.result.Failure? && r.result.error in {SearchFailed, AnalysisFailed} ==>
      |r.calls| >= 3 && r.calls[1].CreateChallenge? && forall i :: 0 <= i < |r.calls| ==> !r.calls[i].UpdateChallenge? && !r.calls[i].UpdateQuestionAfterChallenge?
    ensures r.result.Success? ==>
      && |r.calls| >= 5
      && r.calls[3].AskAdjudicator?
      && r.calls[4] == UpdateChallenge(o.challengeId, r.result.value.analysis, r.result.value.sources, r.result.value.decision,
                                       r.result.value.updatedAnswer, r.result.value.updatedExplanation)
      && r.result.value.challengeId == o.challengeId
      && r.result.value.decision == MakeDecision(o.ai.value).decision
    ensures r.result.Success? && r.result.value.decision == Accepted ==>
      r.calls[5..] == [UpdateQuestionAfterChallenge(questionId, r.result.value.updatedAnswer, r.result.value.updatedExplanation)]
                      + RecalculateAffectedUsers(questionId, o.affected)
    ensures r.result.Success? && r.result.value.decision != Accepted ==> |r.calls| == 5
    ensures r.result.Success? && BelowThreshold(o.ai.value.confidence) ==>
      r.result.value.decision == Rejected && r.result.value.updatedAnswer.None? && |r.calls| == 5
  {
    if MissingKey(cfg) {
      return Run([], Failure(MissingApiKey));
    }
    var question := GetQuestion(db, questionId);
    if question.None? {
      return Run([], Failure(QuestionNotFound));
    }
    var q := question.value;
    if o.challengeCount >= cfg.maxChallenges {
      return Run([CountChallenges(questionId)], Failure(LimitReached));
    }
    var admitted := [CountChallenges(questionId), CreateChallenge(questionId, userId, argument, q.correctAnswer, q.explanation)];
    r := Examine(questionId, q, argument, admitted, cfg, o);
    assert r.calls[0] == admitted[0] && r.calls[1] == admitted[1];
  }
}

=== FILE: flow.dfy ===
/**
 * The study actions of index.php over the HTTP session and the store:
 * `generate` (lines 96-142), `answer` (lines 144-188) and `reset`
 * (lines 190-215). The random draws, the clock and the question
 * generator's reply are parameters.
 */
module StudyFlow {
  import opened Php
  import opened Store
  import opened SessionState
  import Tracker
  import TopicSelector

  /** The level descriptions the question generator is prompted with (api.php). */
  const DifficultyDesc: map<int, string> := map[
    1 := "Básica e direta",
    2 := "Intermediária",
    3 := "Avançada com pegadinhas sutis",
    4 := "Muito complexa com múltiplos conceitos",
    5 := "Expert com armadilhas elaboradas"]

  datatype FlowError = SessionMissing | ProgressMissing | NoTopics | GenerationFailed | QuestionMissing

  /** The state after a request, and the message it reported if it failed. */
  datatype Step = Step(http: HttpSession, db: Db, error: Option<FlowError>)

  /** What is sent to the question generator. */
  datatype QuestionRequest = QuestionRequest(pdfContent: string, topic: Topic, difficulty: int, isWeakPoint: bool)

  /** Every progress row satisfies the tracker's invariant. */
  ghost predicate RowsValid(db: Db) {
    forall sid :: sid in db.progress ==> Tracker.Valid(db.progress[sid])
  }

  /** The random draws are ones PHP could produce for the active session's rows. */
  predicate DrawFits(http: HttpSession, db: Db, d: TopicSelector.Draw) {
    && 0 <= d.roll <= 100
    && (http.studySession.Some? && http.studySession.value in db.sessions && http.studySession.value in db.progress ==>
          TopicSelector.ValidDraw(d, |db.progress[http.studySession.value].weakPoints|,
                                     |db.sessions[http.studySession.value].coreTopics|))
  }

  /** `generate`: choose a topic, ask for a question at the current level, save it and make it current. */
  function Generate(http: HttpSession, db: Db, d: TopicSelector.Draw, reply: Option<GeneratedQuestion>): (r: (Step, Option<QuestionRequest>))
    requires DrawFits(http, db, d)
    ensures http.studySession.None? ==> r == (Step(http, db, None), None)
    ensures http.studySession.Some? ==>
      var sid := http.studySession.value;
      (r.0.error.None? <==> sid in db.sessions && sid in db.progress && db.sessions[sid].coreTopics != [] && reply.Some?)
    ensures r.0.error.Some? ==> r.0.http == http && r.0.db == db
    ensures r.1.Some? ==>
      var sid := http.studySession.value;
      && sid in db.sessions && sid in db.progress
      && r.1.value.topic in db.sessions[sid].coreTopics
      && r.1.value.difficulty == db.progress[sid].difficulty
      && (r.1.value.isWeakPoint <==> r.1.value.topic.id in db.progress[sid].weakPoints)
    ensures r.0.error.None? && http.studySession.Some? ==>
      && r.1.Some? && reply.Some?
      && r.0.http == http.(currentQuestion := r.0.http.currentQuestion)
      && r.0.http.currentQuestion.Some?
      && var qid := r.0.http.currentQuestion.value;
         && GetQuestion(r.0.db, qid).Some?
         && GetQuestion(r.0.db, qid).value.sessionId == http.studySession.value
         && GetQuestion(r.0.db, qid).value.statement == reply.value.statement
         && GetQuestion(r.0.db, qid).value.difficulty == r.1.value.difficulty
         && GetQuestion(r.0.db, qid).value.userAnswer.None?
    ensures Valid(db) ==> Valid(r.0.db)
    ensures r.0.db.progress == db.progress && r.0.db.sessions == db.sessions
  {
    match http.studySession
    case None => (Step(http, db, None), None)
    case Some(sid) =>
      match (GetSession(db, sid), GetProgress(db, sid))
      case (None, _) => (Step(http, db, Some(SessionMissing)), None)
      case (_, None) => (Step(http, db, Some(ProgressMissing)), None)
      case (Some(session), Some(progress)) =>
        match TopicSelector.SelectTopic(session.coreTopics, progress.weakPoints, d)
        case Failure(_) => (Step(http, db, Some(NoTopics)), None)
        case Success(sel) =>
          var request := QuestionRequest(session.pdfContent, sel.topic, progress.difficulty, sel.isWeakPoint);
          match reply
          case None => (Step(http, db, Some(GenerationFailed)), Some(request))
          case Some(q) =>
            var (db', qid) := SaveQuestion(db, sid, q, progress.difficulty);
            (Step(http.(currentQuestion := Some(qid)), db', None), Some(request))
  }

  /** `$_POST['answer'] === 'true'`: any other text, "True" and "1" included, is a false answer. */
  predicate PostedAnswer(posted: string) {
    posted == "true"
  }

  /**
   * `$userAnswer == $question['correct_answer']`: PHP compares a boolean
   * with an integer as booleans, so a stored 0 matches `false` and any
   * other key matches `true`.
   */
  function Matches(userAnswer: bool, storedKey: int): (r: bool)
    ensures storedKey == 0 ==> (r <==> !userAnswer)
    ensures storedKey != 0 ==> (r <==> userAnswer)
  {
    userAnswer == (storedKey != 0)
  }

  /**
   * The key `saveQuestion` stores as 1/0 from the generated answer is matched
   * by posting "true" exactly when the generated answer was truthy.
   */
  lemma StoredKeyMatches(posted: string, generated: Option<Value>)
    ensures Matches(posted == "true", TruthBit(generated)) <==>
      (posted == "true" <==> generated.Some? && Truthy(generated.value))
  {
  }

  /** `answer`: record the answer, update the session's progress, and clear the current question. */
  function Answer(http: HttpSession, db: Db, posted: Option<string>, now: int): (r: Step)
    ensures http.currentQuestion.None? || posted.None? ==> r == Step(http, db, None)
    ensures r.db.sessions == db.sessions && r.db.progress.Keys == db.progress.Keys
    ensures r.db.questions.Keys == db.questions.Keys
    ensures forall id :: id in db.questions && Some(id) != http.currentQuestion ==> r.db.questions[id] == db.questions[id]
    ensures Valid(db) ==> Valid(r.db)
    ensures RowsValid(db) ==> RowsValid(r.db)
    ensures r.error.None? <==>
      || http.currentQuestion.None? || posted.None?
      || (&& http.currentQuestion.value in db.questions
          && http.studySession.Some? && http.studySession.value in db.progress)
    ensures http.currentQuestion.Some? && posted.Some? && http.currentQuestion.value !in db.questions ==>
      r == Step(http, db, Some(QuestionMissing))
    ensures http.currentQuestion.Some? && posted.Some? && http.currentQuestion.value in db.questions ==>
      var qid := http.currentQuestion.value;
      && qid in r.db.questions
      && r.db.questions[qid].userAnswer == Some(if posted.value == "true" then 1 else 0)
      && r.db.questions[qid].answeredAt == Some(now)
    ensures http.currentQuestion.Some? && posted.Some? && http.currentQuestion.value in db.questions &&
            http.studySession.None? ==>
      r.error == Some(SessionMissing) && r.db.progress == db.progress
    ensures http.currentQuestion.Some? && posted.Some? && http.currentQuestion.value in db.questions &&
            http.studySession.Some? && http.studySession.value !in db.progress ==>
      r.error == Some(ProgressMissing) && r.db.progress == db.progress
    ensures r.error.None? && http.currentQuestion.Some? && posted.Some? &&
            http.currentQuestion.value in db.questions &&
            http.studySession.Some? && http.studySession.value in db.progress ==>
      var qid := http.currentQuestion.value;
      var sid := http.studySession.value;
      var q := db.questions[qid];
      var isCorrect := Matches(posted.value == "true", q.correctAnswer);
      && r.db.progress[sid] == Tracker.ApplyAnswer(db.progress[sid], isCorrect, q.topicId)
      && qid in r.db.questions
      && r.db.questions[qid].userAnswer == Some(if posted.value == "true" then 1 else 0)
      && r.db.questions[qid].answeredAt == Some(now)
      && r.http == http.(currentQuestion := None, lastAnswer := Some(LastAnswer(isCorrect, q.explanation)))
    ensures r.error.Some? ==> r.http == http
    ensures forall sid :: sid in db.progress && Some(sid) != http.studySession ==> r.db.progress[sid] == db.progress[sid]
  {
    if http.currentQuestion.None? || posted.None? then Step(http, db, None)
    else
      var qid := http.currentQuestion.value;
      var userAnswer := PostedAnswer(posted.value);
      match GetQuestion(db, qid)
      case None => Step(http, db, Some(QuestionMissing))
      case Some(q) =>
        var db1 := AnswerQuestion(db, qid, userAnswer, now);
        match http.studySession
        case None => Step(http, db1, Some(SessionMissing))
        case Some(sid) =>
          match GetProgress(db1, sid)
          case None => Step(http, db1, Some(ProgressMissing))
          case Some(p) =>
            var isCorrect := Matches(userAnswer, q.correctAnswer);
            var p' := Tracker.ApplyAnswer(p, isCorrect, q.topicId);
            var db2 := UpdateProgress(db1, sid, p'.correct, p'.total, p'.difficulty, p'.weakPoints);
            Step(http.(currentQuestion := None, lastAnswer := Some(LastAnswer(isCorrect, q.explanation))), db2, None)
  }

  /** `reset`: forget the study in progress but stay logged in. */
  function Reset(http: HttpSession, now: int): (r: HttpSession)
    ensures r.studySession.None? && r.currentQuestion.None? && r.lastAnswer.None?
    ensures r.loggedIn == http.loggedIn && r.username == http.username && r.loginTime == http.loginTime
    ensures r.aiProvider == http.aiProvider && r.hasChallengeResult == http.hasChallengeResult
    ensures http.loggedIn.Some? && Truthy(http.loggedIn.value) ==> r.lastActivity == Some(now)
    ensures !(http.loggedIn.Some? && Truthy(http.loggedIn.value)) ==> r.lastActivity == http.lastActivity
  {
    var cleared := http.(studySession := None, currentQuestion := None, lastAnswer := None);
    if http.loggedIn.Some? && Truthy(http.loggedIn.value) then cleared.(lastActivity := Some(now))
    else cleared
  }

  // ---------------------------------------------------------------------
  // Properties across requests

  /** Posting the same answer again once it has been processed changes nothing. */
  lemma AnswerRepostIsNoOp(http: HttpSession, db: Db, posted: Option<string>, now: int, later: int)
    requires Answer(http, db, posted, now).error.None?
    requires http.currentQuestion.Some?
    ensures var r := Answer(http, db, posted, now);
      Answer(r.http, r.db, posted, later) == Step(r.http, r.db, None)
  {
  }

  /** After a reset there is no question to answer and no session to generate for. */
  lemma ResetStopsStudy(http: HttpSession, db: Db, posted: Option<string>, d: TopicSelector.Draw,
                        reply: Option<GeneratedQuestion>, now: int, later: int)
    requires 0 <= d.roll <= 100
    ensures Answer(Reset(http, now), db, posted, later) == Step(Reset(http, now), db, None)
    ensures DrawFits(Reset(http, now), db, d)
    ensures Generate(Reset(http, now), db, d, reply) == (Step(Reset(http, now), db, None), None)
  {
  }

  /** A question generated from a valid store is asked at a level the description table covers. */
  lemma GeneratedLevelIsDescribed(http: HttpSession, db: Db, d: TopicSelector.Draw, reply: Option<GeneratedQuestion>)
    requires DrawFits(http, db, d)
    requires RowsValid(db)
    requires Generate(http, db, d, reply).1.Some?
    ensures Generate(http, db, d, reply).1.value.difficulty in DifficultyDesc
  {
    var sid := http.studySession.value;
    assert Tracker.Valid(db.progress[sid]);
  }

  /** A new session starts from a valid progress row, so all later answers keep it valid. */
  lemma CreateSessionKeepsRowsValid(db: Db, pdfName: string, pdfContent: string, topics: seq<Topic>)
    requires RowsValid(db)
    ensures RowsValid(CreateSession(db, pdfName, pdfContent, topics).0)
  {
    var (db', id) := CreateSession(db, pdfName, pdfContent, topics);
    assert Tracker.Valid(InitialProgress);
    forall sid | sid in db'.progress ensures Tracker.Valid(db'.progress[sid]) {
      if sid != id {
        assert sid in db.progress;
      }
    }
  }
}

=== FILE: php.dfy ===
/**
 * Shared vocabulary for the PHP study application: optional values and
 * results (PHP's `null`/`false` returns and exceptions), the loosely typed
 * values a decoded JSON payload or an HTTP session can hold, and the decimal
 * rendering that string interpolation and `sprintf('%02d')` perform.
 *
 * Strings are `seq<char>`. Outside `Dispute` every char stands for one byte,
 * as PHP's `substr` and non-`/u` regular expressions see them; `Dispute`
 * reads a char as one Unicode code point, as its `/u` filter does.
 */
module Php {

  datatype Option<+T> = None | Some(value: T)

  datatype Result<+T, +E> = Success(value: T) | Failure(error: E)

  /** A scalar as PHP holds it after `json_decode` or in `$_SESSION`. */
  datatype Value = VBool(b: bool) | VInt(i: int) | VStr(s: string)

  /** PHP truthiness: false, 0, "" and "0" are falsy. */
  predicate Truthy(v: Value) {
    match v
    case VBool(b) => b
    case VInt(i) => i != 0
    case VStr(s) => s != "" && s != "0"
  }

  /** `$x ? 1 : 0` on a possibly missing value (missing reads as null). */
  function TruthBit(v: Option<Value>): (r: int)
    ensures r == 1 <==> v.Some? && Truthy(v.value)
    ensures r == 0 || r == 1
  {
    if v.Some? && Truthy(v.value) then 1 else 0
  }

  // ---------------------------------------------------------------------
  // Integer arithmetic as PHP does it

  /** PHP's `%`: the remainder takes the sign of the dividend. */
  function TruncRem(a: int, b: int): (r: int)
    requires b > 0
    ensures -b < r < b
    ensures a >= 0 ==> 0 <= r
    ensures a <= 0 ==> r <= 0
    ensures exists q :: a == q * b + r
  {
    if a >= 0 then
      assert a == (a / b) * b + a % b;
      a % b
    else
      var m := -a;
      assert m == (m / b) * b + m % b;
      assert a == (-(m / b)) * b + -(m % b);
      -(m % b)
  }

  /** On a non-negative dividend PHP's `%` agrees with Dafny's. */
  lemma TruncRemNonNegative(a: int, b: int)
    requires a >= 0 && b > 0
    ensures TruncRem(a, b) == a % b
  {
  }

  /** PHP's `round($x)`: to the nearest integer, halves away from zero. */
  function Round(x: real): (r: int)
    ensures x - 0.5 <= r as real <= x + 0.5
    ensures x >= 0.0 ==> r >= 0
    ensures r as real == x + 0.5 ==> x >= 0.0
    ensures r as real == x - 0.5 ==> x < 0.0
  {
    if x >= 0.0 then (x + 0.5).Floor else -((-x + 0.5).Floor)
  }

  /** PHP's `round($x, 1)`. */
  function Round1(x: real): (r: real)
    ensures x - 0.05 <= r <= x + 0.05
    ensures x >= 0.0 ==> r >= 0.0
    ensures (r * 10.0).Floor as real == r * 10.0
  {
    Round(x * 10.0) as real / 10.0
  }

  /** `round(correct / questions * 100, 1)`, or 0 when there were no questions. */
  function Percent1(correct: int, questions: int): (r: real)
    ensures questions <= 0 ==> r == 0.0
    ensures 0 <= correct <= questions ==> 0.0 <= r <= 100.0
    ensures questions > 0 ==>
      var exact := (correct as real / questions as real) * 100.0;
      exact - 0.05 <= r <= exact + 0.05
    ensures (r * 10.0).Floor as real == r * 10.0
  {
    if questions > 0 then
      var x := (correct as real / questions as real) * 100.0;
      assert 0 <= correct <= questions ==> 0.0 <= x * 10.0 <= 1000.0 by {
        if 0 <= correct <= questions { RatioBounds(correct as real, questions as real); }
      }
      Round1(x)
    else 0.0
  }

  lemma RatioBounds(c: real, q: real)
    requires 0.0 <= c <= q && 0.0 < q
    ensures 0.0 <= c / q <= 1.0
  {
  }

  // ---------------------------------------------------------------------
  // Durations

  /** The whole hours of a duration in seconds, `floor($d / 3600)`. */
  function Hours(d: int): (r: int)
    ensures r * 3600 <= d < r * 3600 + 3600
    ensures d >= 0 ==> r >= 0
  {
    d / 3600
  }

  /**
   * The minutes left over, `floor(($d % 3600) / 60)` with PHP's truncating
   * `%`: below 60, and non-negative for a non-negative duration.
   */
  function Minutes(d: int): (r: int)
    ensures -60 <= r < 60
    ensures d >= 0 ==> r >= 0
  {
    TruncRem(d, 3600) / 60
  }

  /** Whole hours and leftover minutes bracket a non-negative duration to within a minute. */
  lemma ClockArithmetic(d: int)
    requires d >= 0
    ensures Hours(d) * 3600 + Minutes(d) * 60 <= d < Hours(d) * 3600 + Minutes(d) * 60 + 60
  {
    TruncRemNonNegative(d, 3600);
    var h := d / 3600;
    var r := d % 3600;
    assert d == h * 3600 + r && 0 <= r < 3600;
    var m := r / 60;
    assert r == m * 60 + r % 60 && 0 <= r % 60 < 60;
  }

  // ---------------------------------------------------------------------
  // Decimal rendering

  predicate IsDigit(c: char) {
    '0' <= c <= '9'
  }

  predicate AllDigits(s: string) {
    forall i :: 0 <= i < |s| ==> IsDigit(s[i])
  }

  function DigitChar(d: nat): (c: char)
    requires d < 10
    ensures IsDigit(c)
  {
    ['0', '1', '2', '3', '4', '5', '6', '7', '8', '9'][d]
  }

  function DigitValue(c: char): (d: nat)
    requires IsDigit(c)
    ensures d < 10
  {
    (c as int - '0' as int) as nat
  }

  /** Interpolating a non-negative integer into a string. */
  function NatToString(n: nat): (r: string)
    ensures |r| >= 1 && AllDigits(r)
    ensures r[0] == '0' ==> n == 0
  {
    if n < 10 then [DigitChar(n)]
    else NatToString(n / 10) + [DigitChar(n % 10)]
  }

  /** Interpolating any integer: a minus sign, then the magnitude. */
  function IntToString(n: int): (r: string)
    ensures |r| >= 1
    ensures n >= 0 ==> r == NatToString(n)
    ensures n < 0 ==> r == "-" + NatToString(-n)
  {
    if n < 0 then "-" + NatToString(-n) else NatToString(n)
  }

  /** `sprintf('%02d', n)`: at least two characters, zero-padded, sign included in the width. */
  function PadTwo(n: int): (r: string)
    ensures |r| >= 2
    ensures 0 <= n < 100 ==> |r| == 2 && AllDigits(r)
  {
    if n < 0 then "-" + NatToString(-n)
    else if n < 10 then "0" + NatToString(n)
    else
      assert n < 100 ==> NatToString(n) == NatToString(n / 10) + [DigitChar(n % 10)];
      NatToString(n)
  }

  /** The first position of `c` in `s`, as `strpos` finds it. */
  function IndexOf(s: string, c: char): (r: Option<nat>)
    ensures r.Some? ==> r.value < |s| && s[r.value] == c && forall j :: 0 <= j < r.value ==> s[j] != c
    ensures r.None? ==> forall j :: 0 <= j < |s| ==> s[j] != c
  {
    if s == [] then None
    else if s[0] == c then Some(0)
    else match IndexOf(s[1..], c)
      case None => None
      case Some(k) => Some(k + 1)
  }

  /** A separator that is not a digit is found right after a run of digits. */
  lemma SeparatorAfterDigits(a: string, c: char, b: string)
    requires AllDigits(a) && !IsDigit(c)
    ensures IndexOf(a + [c] + b, c) == Some(|a|)
  {
    var s := a + [c] + b;
    forall j | 0 <= j < |a| ensures s[j] != c {
      assert s[j] == a[j];
    }
    assert s[|a|] == c;
  }

  /** Reading a run of decimal digits back as a number. */
  function ParseDigits(s: string): nat
    requires AllDigits(s)
  {
    if s == [] then 0
    else ParseDigits(s[..|s| - 1]) * 10 + DigitValue(s[|s| - 1])
  }

  lemma DigitRoundTrip(d: nat)
    requires d < 10
    ensures DigitValue(DigitChar(d)) == d
  {
  }

  /** Rendering a number and reading its digits back gives the number. */
  lemma {:induction false} ParseNatToString(n: nat)
    ensures ParseDigits(NatToString(n)) == n
  {
    DigitRoundTrip(n % 10);
    if n >= 10 {
      var s := NatToString(n);
      assert s[..|s| - 1] == NatToString(n / 10);
      ParseNatToString(n / 10);
    }
  }

  /** A two-digit field reads back as the value it was padded from. */
  lemma PadTwoRoundTrip(n: int)
    requires 0 <= n
    ensures AllDigits(PadTwo(n))
    ensures ParseDigits(PadTwo(n)) == n
  {
    ParseNatToString(n);
    if n < 10 {
      var s := PadTwo(n);
      assert s[..|s| - 1] == "0";
      assert ParseDigits("0") == 0;
    }
  }
}

=== FILE: report.dfy ===
/**
 * The pure helpers of the progress report in pdf_generator.php: the study
 * time text, the overall and per-day success rates, the per-topic badge,
 * and the name and location of the saved HTML file.
 */
module Report {
  import opened Php

  // ---------------------------------------------------------------------
  // Study time

  /** `formatStudyTime`: whole hours and the leftover minutes, hours shown only when positive. */
  function FormatStudyTime(seconds: int): (r: string)
    ensures |r| >= 4 && r[|r| - 3..] == "min"
    ensures 'h' in r <==> seconds >= 3600
  {
    if Hours(seconds) > 0 then StudyTimeText(Hours(seconds), Minutes(seconds))
    else IntToString(Minutes(seconds)) + "min"
  }

  /** `"{$hours}h {$minutes}min"`. */
  function StudyTimeText(hours: int, minutes: int): string {
    IntToString(hours) + "h " + IntToString(minutes) + "min"
  }

  /** Reads a study time text back into hours and minutes. */
  function ParseStudyTime(s: string): Option<(nat, nat)> {
    if |s| < 3 || s[|s| - 3..] != "min" then None
    else ParseStudyBody(s[..|s| - 3])
  }

  /** The text before "min": either minutes alone or hours, "h ", minutes. */
  function ParseStudyBody(body: string): Option<(nat, nat)> {
    match IndexOf(body, 'h')
    case None => if AllDigits(body) then Some((0, ParseDigits(body))) else None
    case Some(k) =>
      if k + 2 <= |body| && body[k + 1] == ' ' && AllDigits(body[..k]) && AllDigits(body[k + 2..])
      then Some((ParseDigits(body[..k]), ParseDigits(body[k + 2..])))
      else None
  }

  lemma NoHInDigits(s: string)
    requires AllDigits(s)
    ensures 'h' !in s
  {
    forall i | 0 <= i < |s| ensures s[i] != 'h' {
      assert IsDigit(s[i]);
    }
  }

  /** The "min" suffix is stripped before the body is read. */
  lemma ParseMinSuffix(body: string)
    ensures ParseStudyTime(body + "min") == ParseStudyBody(body)
  {
    var s := body + "min";
    assert s[|s| - 3..] == "min";
    assert s[..|s| - 3] == body;
  }

  /** A body with hours reads back both runs of digits. */
  lemma {:induction false} ParseHoursBody(hs: string, ms: string)
    requires AllDigits(hs) && AllDigits(ms)
    ensures ParseStudyBody(hs + ['h'] + (" " + ms)) == Some((ParseDigits(hs), ParseDigits(ms)))
  {
    var body := hs + ['h'] + (" " + ms);
    SeparatorAfterDigits(hs, 'h', " " + ms);
    assert body[|hs| + 1] == ' ';
    assert body[..|hs|] == hs;
    assert body[|hs| + 2..] == ms;
  }

  /** Hours and minutes read back from the text with hours. */
  lemma StudyTimeTextRoundTrip(h: nat, m: nat)
    ensures ParseStudyTime(StudyTimeText(h, m)) == Some((h, m))
  {
    var hs, ms := NatToString(h), NatToString(m);
    assert StudyTimeText(h, m) == (hs + ['h'] + (" " + ms)) + "min";
    ParseMinSuffix(hs + ['h'] + (" " + ms));
    ParseHoursBody(hs, ms);
    ParseNatToString(h);
    ParseNatToString(m);
  }

  /** Minutes alone read back with zero hours. */
  lemma MinutesTextRoundTrip(m: nat)
    ensures ParseStudyTime(IntToString(m) + "min") == Some((0, m))
  {
    var ms := NatToString(m);
    ParseNatToString(m);
    var s := ms + "min";
    assert s[..|s| - 3] == ms;
    NoHInDigits(ms);
  }

  /** For a non-negative duration the text carries exactly the whole hours and the minutes below 60. */
  lemma StudyTimeRoundTrip(seconds: int)
    requires seconds >= 0
    ensures 0 <= Minutes(seconds) < 60
    ensures ParseStudyTime(FormatStudyTime(seconds)) == Some((Hours(seconds), Minutes(seconds)))
  {
    if Hours(seconds) > 0 {
      StudyTimeTextRoundTrip(Hours(seconds), Minutes(seconds));
    } else {
      MinutesTextRoundTrip(Minutes(seconds));
    }
  }

  // ---------------------------------------------------------------------
  // Rates

  /** The statistics row of a user; a missing column reads as 0. */
  datatype UserStats = UserStats(totalQuestions: Option<int>, totalCorrect: Option<int>, totalStudyTime: Option<int>)

  function OrZero(v: Option<int>): int {
    if v.Some? then v.value else 0
  }

  /** The headline figures of the report. */
  datatype Headline = Headline(percentage: real, studyTime: string)

  function ReportHeadline(stats: UserStats): (r: Headline)
    ensures OrZero(stats.totalQuestions) <= 0 ==> r.percentage == 0.0
    ensures OrZero(stats.totalQuestions) > 0 ==>
      var exact := (OrZero(stats.totalCorrect) as real / OrZero(stats.totalQuestions) as real) * 100.0;
      exact - 0.05 <= r.percentage <= exact + 0.05
    ensures 0 <= OrZero(stats.totalCorrect) <= OrZero(stats.totalQuestions) ==> 0.0 <= r.percentage <= 100.0
    ensures stats.totalStudyTime.None? ==> r.studyTime == "0min"
    ensures var t := OrZero(stats.totalStudyTime);
      t >= 0 ==> ParseStudyTime(r.studyTime) == Some((Hours(t), Minutes(t)))
  {
    var t := OrZero(stats.totalStudyTime);
    var studyTime := FormatStudyTime(t);
    if t >= 0 then
      StudyTimeRoundTrip(t);
      Headline(Percent1(OrZero(stats.totalCorrect), OrZero(stats.totalQuestions)), studyTime)
    else
      Headline(Percent1(OrZero(stats.totalCorrect), OrZero(stats.totalQuestions)), studyTime)
  }

  // ---------------------------------------------------------------------
  // Topic badges

  datatype Badge = Danger | Warning | Good

  /** The badge of a topic, decided on its percentage rounded to one decimal. */
  function BadgeFor(percentage: real): (b: Badge)
    ensures b == Danger <==> Round1(percentage) < 50.0
    ensures b == Warning <==> 50.0 <= Round1(percentage) < 70.0
    ensures b == Good <==> Round1(percentage) >= 70.0
  {
    var shown := Round1(percentage);
    if shown < 50.0 then Danger
    else if shown < 70.0 then Warning
    else Good
  }

  lemma RoundBelow(x: real, n: int)
    requires n > 0
    ensures Round(x) < n <==> x < n as real - 0.5
  {
  }

  /** Because of the rounding, the thresholds on the raw percentage sit at 49.95 and 69.95. */
  lemma BadgeThresholds(p: real)
    ensures BadgeFor(p) == Danger <==> p < 49.95
    ensures BadgeFor(p) == Warning <==> 49.95 <= p < 69.95
    ensures BadgeFor(p) == Good <==> p >= 69.95
  {
    RoundBelow(p * 10.0, 500);
    RoundBelow(p * 10.0, 700);
  }

  // ---------------------------------------------------------------------
  // Saved file

  predicate KeptInFileName(c: char) {
    'a' <= c <= 'z' || 'A' <= c <= 'Z' || '0' <= c <= '9'
  }

  /** `preg_replace('/[^a-zA-Z0-9]/', '_', name)`, byte by byte. */
  function SafeName(name: string): (r: string)
    ensures |r| == |name|
    ensures forall i :: 0 <= i < |r| ==> KeptInFileName(r[i]) || r[i] == '_'
    ensures forall i :: 0 <= i < |r| ==> KeptInFileName(name[i]) ==> r[i] == name[i]
    ensures forall i :: 0 <= i < |r| ==> !KeptInFileName(name[i]) ==> r[i] == '_'
  {
    if name == [] then []
    else [if KeptInFileName(name[0]) then name[0] else '_'] + SafeName(name[1..])
  }

  /** A name made only of kept characters and underscores is its own safe name, and sanitising twice changes nothing. */
  lemma {:induction false} SafeNameFixpoint(name: string)
    ensures (forall i :: 0 <= i < |name| ==> KeptInFileName(name[i]) || name[i] == '_') <==> SafeName(name) == name
    ensures SafeName(SafeName(name)) == SafeName(name)
  {
    if name != [] {
      SafeNameFixpoint(name[1..]);
      var r := SafeName(name);
      assert r[1..] == SafeName(name[1..]);
      if SafeName(name) == name {
        forall i | 0 <= i < |name| ensures KeptInFileName(name[i]) || name[i] == '_' {
          assert name[i] == r[i];
        }
      }
      if forall i :: 0 <= i < |name| ==> KeptInFileName(name[i]) || name[i] == '_' {
        assert forall i :: 0 <= i < |name[1..]| ==> KeptInFileName(name[1..][i]) || name[1..][i] == '_';
      }
      assert SafeName(r)[1..] == SafeName(r[1..]);
    }
  }

  const FilePrefix: string := "relatorio_"
  const FileSuffix: string := ".html"

  /** The report file name for a user at a `YmdHis` timestamp. */
  function ReportFileName(userName: string, stamp: string): (r: string)
    ensures |r| == |FilePrefix| + |userName| + 1 + |stamp| + |FileSuffix|
    ensures r[..|FilePrefix|] == FilePrefix && r[|r| - |FileSuffix|..] == FileSuffix
    ensures r[|FilePrefix|..|FilePrefix| + |userName|] == SafeName(userName)
    ensures r[|FilePrefix| + |userName|] == '_'
    ensures r[|FilePrefix| + |userName| + 1..|r| - |FileSuffix|] == stamp
  {
    var r := FilePrefix + SafeName(userName) + "_" + stamp + FileSuffix;
    var k := |FilePrefix| + |userName|;
    assert r[..|FilePrefix|] == FilePrefix;
    assert r[|FilePrefix|..k] == SafeName(userName);
    assert r[k] == '_';
    assert r[k + 1..|r| - |FileSuffix|] == stamp;
    r
  }

  /** Whatever the user's name, a digit timestamp keeps the file inside the reports directory. */
  lemma FileNameHasNoSeparator(userName: string, stamp: string)
    requires AllDigits(stamp)
    ensures '/' !in ReportFileName(userName, stamp) && '\\' !in ReportFileName(userName, stamp)
  {
    var safe := SafeName(userName);
    assert '/' !in safe && '\\' !in safe by {
      forall i | 0 <= i < |safe| ensures safe[i] != '/' && safe[i] != '\\' {
        assert KeptInFileName(safe[i]) || safe[i] == '_';
      }
    }
    assert '/' !in stamp && '\\' !in stamp by {
      forall i | 0 <= i < |stamp| ensures stamp[i] != '/' && stamp[i] != '\\' {
        assert IsDigit(stamp[i]);
      }
    }
    assert ReportFileName(userName, stamp) == FilePrefix + safe + "_" + stamp + FileSuffix;
  }

  /** The array `saveAsHTML` returns. */
  datatype SavedReport = SavedReport(path: string, filename: string, url: string, kind: string)

  /** `saveAsHTML`: the file is written at the directory followed by the file name. */
  function SaveAsHtml(reportsDir: string, userName: string, stamp: string): (r: SavedReport)
    ensures r.filename == ReportFileName(userName, stamp)
    ensures r.path == reportsDir + r.filename && r.url == r.path
    ensures r.kind == "html"
  {
    var name := ReportFileName(userName, stamp);
    SavedReport(reportsDir + name, name, reportsDir + name, "html")
  }
}

=== FILE: session.dfy ===
/**
 * The PHP session (`$_SESSION`) as an explicit record. A key that is unset
 * and a key holding `null` read the same through `isset` and `??`, so both
 * are `None`. `logged_in` keeps its loose type, because auth.php tests it
 * with `!== true` and index.php with plain truthiness.
 */
module SessionState {
  import opened Php

  /** The feedback index.php keeps after an answer (`last_answer`). */
  datatype LastAnswer = LastAnswer(correct: bool, explanation: string)

  datatype HttpSession = HttpSession(
    loggedIn: Option<Value>,
    username: Option<string>,
    lastActivity: Option<int>,
    loginTime: Option<int>,
    aiProvider: Option<string>,
    studySession: Option<int>,
    currentQuestion: Option<int>,
    lastAnswer: Option<LastAnswer>,
    hasChallengeResult: bool)

  /** The session after `session_unset()`. */
  const Empty := HttpSession(None, None, None, None, None, None, None, None, false)

  /** Drops the keys that describe the study in progress. */
  function ClearStudy(s: HttpSession): (r: HttpSession)
    ensures r.currentQuestion.None? && r.lastAnswer.None? && !r.hasChallengeResult
    ensures r.loggedIn == s.loggedIn && r.username == s.username
    ensures r.lastActivity == s.lastActivity && r.loginTime == s.loginTime
    ensures r.aiProvider == s.aiProvider && r.studySession == s.studySession
  {
    s.(currentQuestion := None, lastAnswer := None, hasChallengeResult := false)
  }
}

=== FILE: store.dfy ===
/**
 * The content store of the study application (database.php): study
 * sessions, one progress row per session, and generated questions, each
 * table a map from its AUTOINCREMENT id to the row.
 *
 * `json_encode`/`json_decode` of the topic list and of the weak-point list
 * are taken to be inverse to each other, so the decoded values are stored
 * directly.
 */
module Store {
  import opened Php

  /** One entry of a session's `core_topics`. */
  datatype Topic = Topic(id: int, title: string, importance: string, keyPoints: seq<string>, difficulty: int)

  /** A row of `study_sessions`. */
  datatype SessionRow = SessionRow(pdfName: string, pdfContent: string, coreTopics: seq<Topic>)

  /** A row of `user_progress`, found by its `session_id`. */
  datatype Progress = Progress(correct: int, total: int, difficulty: int, weakPoints: seq<int>)

  /** A row of `questions`; `correctAnswer` and `userAnswer` are stored as 1/0. */
  datatype QuestionRow = QuestionRow(
    sessionId: int,
    statement: string,
    correctAnswer: int,
    topicId: int,
    explanation: string,
    keyConcept: string,
    difficulty: int,
    userAnswer: Option<int>,
    answeredAt: Option<int>)

  /** The decoded reply of the question generator, as `saveQuestion` reads it. */
  datatype GeneratedQuestion = GeneratedQuestion(
    statement: string,
    correctAnswer: Option<Value>,
    topicId: int,
    explanation: string,
    keyConceptTested: string)

  datatype Db = Db(
    sessions: map<int, SessionRow>,
    progress: map<int, Progress>,
    questions: map<int, QuestionRow>,
    nextSession: int,
    nextQuestion: int)

  /** The defaults of the `user_progress` columns. */
  const InitialProgress := Progress(0, 0, 1, [])

  /**
   * Ids are handed out by AUTOINCREMENT, so every id in use lies below the
   * next one; every session has exactly its one progress row.
   */
  ghost predicate Valid(db: Db) {
    && 1 <= db.nextSession
    && 1 <= db.nextQuestion
    && (forall id :: id in db.sessions ==> 1 <= id < db.nextSession)
    && (forall id :: id in db.questions ==> 1 <= id < db.nextQuestion)
    && db.progress.Keys == db.sessions.Keys
  }

  /** `createSession`: a fresh session row plus its default progress row. */
  function CreateSession(db: Db, pdfName: string, pdfContent: string, coreTopics: seq<Topic>): (r: (Db, int))
    ensures Valid(db) ==> Valid(r.0)
    ensures Valid(db) ==> r.1 !in db.sessions && r.1 !in db.progress
    ensures Valid(db) ==> |r.0.sessions| == |db.sessions| + 1 && |r.0.progress| == |db.progress| + 1
    ensures r.1 in r.0.sessions && r.0.sessions[r.1] == SessionRow(pdfName, pdfContent, coreTopics)
    ensures r.1 in r.0.progress && r.0.progress[r.1] == InitialProgress
    ensures forall id :: id in db.sessions && id != r.1 ==> id in r.0.sessions && r.0.sessions[id] == db.sessions[id]
    ensures forall id :: id in db.progress && id != r.1 ==> id in r.0.progress && r.0.progress[id] == db.progress[id]
    ensures r.0.questions == db.questions
  {
    var id := db.nextSession;
    (db.(sessions := db.sessions[id := SessionRow(pdfName, pdfContent, coreTopics)],
         progress := db.progress[id := InitialProgress],
         nextSession := id + 1),
     id)
  }

  /** `getSession`: the row, or `false` (None) when there is none. */
  function GetSession(db: Db, id: int): (r: Option<SessionRow>)
    ensures r.Some? <==> id in db.sessions
    ensures r.Some? ==> r.value == db.sessions[id]
  {
    if id in db.sessions then Some(db.sessions[id]) else None
  }

  /** `getProgress`: the progress row of a session, or `false` (None). */
  function GetProgress(db: Db, sessionId: int): (r: Option<Progress>)
    ensures r.Some? <==> sessionId in db.progress
    ensures r.Some? ==> r.value == db.progress[sessionId]
  {
    if sessionId in db.progress then Some(db.progress[sessionId]) else None
  }

  /**
   * `updateProgress`: an UPDATE of all four columns of the session's row;
   * with no such row the UPDATE matches nothing.
   */
  function UpdateProgress(db: Db, sessionId: int, correct: int, total: int, difficulty: int, weakPoints: seq<int>): (r: Db)
    ensures sessionId in db.progress ==> GetProgress(r, sessionId) == Some(Progress(correct, total, difficulty, weakPoints))
    ensures sessionId !in db.progress ==> r == db
    ensures r.progress.Keys == db.progress.Keys
    ensures forall id :: id in db.progress && id != sessionId ==> r.progress[id] == db.progress[id]
    ensures r.sessions == db.sessions && r.questions == db.questions
    ensures r.nextSession == db.nextSession && r.nextQuestion == db.nextQuestion
  {
    if sessionId in db.progress then
      db.(progress := db.progress[sessionId := Progress(correct, total, difficulty, weakPoints)])
    else db
  }

  /** `saveQuestion`: a fresh question row, not yet answered. */
  function SaveQuestion(db: Db, sessionId: int, q: GeneratedQuestion, difficulty: int): (r: (Db, int))
    ensures Valid(db) ==> Valid(r.0) && r.1 !in db.questions
    ensures r.1 in r.0.questions
    ensures r.0.questions[r.1].sessionId == sessionId
    ensures r.0.questions[r.1].statement == q.statement
    ensures r.0.questions[r.1].correctAnswer == 1 <==> q.correctAnswer.Some? && Truthy(q.correctAnswer.value)
    ensures r.0.questions[r.1].correctAnswer in {0, 1}
    ensures r.0.questions[r.1].topicId == q.topicId
    ensures r.0.questions[r.1].explanation == q.explanation
    ensures r.0.questions[r.1].keyConcept == q.keyConceptTested
    ensures r.0.questions[r.1].difficulty == difficulty
    ensures r.0.questions[r.1].userAnswer.None? && r.0.questions[r.1].answeredAt.None?
    ensures forall id :: id in db.questions && id != r.1 ==> id in r.0.questions && r.0.questions[id] == db.questions[id]
    ensures r.0.sessions == db.sessions && r.0.progress == db.progress
  {
    var id := db.nextQuestion;
    var row := QuestionRow(sessionId, q.statement, TruthBit(q.correctAnswer), q.topicId,
                           q.explanation, q.keyConceptTested, difficulty, None, None);
    (db.(questions := db.questions[id := row], nextQuestion := id + 1), id)
  }

  /**
   * `answerQuestion`: records the learner's answer as 1/0 and the time;
   * an unknown id matches no row.
   */
  function AnswerQuestion(db: Db, questionId: int, answer: bool, now: int): (r: Db)
    ensures questionId !in db.questions ==> r == db
    ensures r.questions.Keys == db.questions.Keys
    ensures questionId in db.questions ==>
      var before := db.questions[questionId];
      var after := r.questions[questionId];
      && after.userAnswer == Some(if answer then 1 else 0)
      && after.answeredAt == Some(now)
      && after.(userAnswer := before.userAnswer, answeredAt := before.answeredAt) == before
    ensures forall id :: id in db.questions && id != questionId ==> r.questions[id] == db.questions[id]
    ensures r.sessions == db.sessions && r.progress == db.progress
    ensures Valid(db) ==> Valid(r)
  {
    if questionId in db.questions then
      var row := db.questions[questionId];
      db.(questions := db.questions[questionId := row.(userAnswer := Some(if answer then 1 else 0), answeredAt := Some(now))])
    else db
  }

  /** `getQuestion`: the row, or `false` (None). */
  function GetQuestion(db: Db, questionId: int): (r: Option<QuestionRow>)
    ensures r.Some? <==> questionId in db.questions
    ensures r.Some? ==> r.value == db.questions[questionId]
  {
    if questionId in db.questions then Some(db.questions[questionId]) else None
  }

  // ---------------------------------------------------------------------
  // Round trips through the store

  /** A new session reads back with the topics it was created with and default progress. */
  lemma CreateThenGet(db: Db, pdfName: string, pdfContent: string, coreTopics: seq<Topic>)
    ensures var (db', id) := CreateSession(db, pdfName, pdfContent, coreTopics);
      && GetSession(db', id) == Some(SessionRow(pdfName, pdfContent, coreTopics))
      && GetProgress(db', id) == Some(Progress(0, 0, 1, []))
  {
  }

  /** The weak-point list written by `updateProgress` is the one `getProgress` returns. */
  lemma WeakPointsRoundTrip(db: Db, sessionId: int, correct: int, total: int, difficulty: int, weakPoints: seq<int>)
    requires sessionId in db.sessions
    requires Valid(db)
    ensures GetProgress(UpdateProgress(db, sessionId, correct, total, difficulty, weakPoints), sessionId).value.weakPoints == weakPoints
  {
  }

  /** A saved question reads back with the generator's fields, unanswered. */
  lemma SaveThenGet(db: Db, sessionId: int, q: GeneratedQuestion, difficulty: int)
    requires Valid(db)
    ensures var (db', id) := SaveQuestion(db, sessionId, q, difficulty);
      && GetQuestion(db', id).Some?
      && GetQuestion(db', id).value.statement == q.statement
      && GetQuestion(db', id).value.topicId == q.topicId
      && GetQuestion(db', id).value.explanation == q.explanation
      && GetQuestion(db', id).value.difficulty == difficulty
      && GetQuestion(db', id).value.userAnswer == None
      && GetQuestion(db, id) == None
  {
  }
}

=== FILE: topics.dfy ===
/**
 * Topic selection of index.php (`generate` action, lines 102-121): a roll of
 * `rand(0, 100)` above 30 draws a weak topic id and looks it up among the
 * session's topics; otherwise, or when the id names no topic, a topic is
 * drawn uniformly from all of them. The random draws come in as a `Draw`.
 */
module TopicSelector {
  import opened Php
  import opened Store

  /** Rolls above this value (out of 0..100) go to the weak branch. */
  const WeakRollThreshold := 30

  /** `rand(0, 100)`, `array_rand($weakPoints)` and `array_rand($topics)`. */
  datatype Draw = Draw(roll: int, weakIndex: int, uniformIndex: int)

  /** What PHP's random functions can return for lists of these lengths. */
  predicate ValidDraw(d: Draw, weakCount: nat, topicCount: nat) {
    && 0 <= d.roll <= 100
    && (weakCount > 0 ==> 0 <= d.weakIndex < weakCount)
    && (topicCount > 0 ==> 0 <= d.uniformIndex < topicCount)
  }

  datatype Selection = Selection(topic: Topic, isWeakPoint: bool)

  /** `array_rand` of an empty topic list: a malformed session. */
  datatype SelectError = NoTopics

  /** The first topic whose id equals `id` (the `foreach ... break` search). */
  function FindTopic(topics: seq<Topic>, id: int): (r: Option<nat>)
    ensures r.None? <==> forall j :: 0 <= j < |topics| ==> topics[j].id != id
    ensures r.Some? ==> r.value < |topics| && topics[r.value].id == id
    ensures r.Some? ==> forall j :: 0 <= j < r.value ==> topics[j].id != id
  {
    if topics == [] then None
    else if topics[0].id == id then Some(0)
    else match FindTopic(topics[1..], id)
      case None => None
      case Some(k) => Some(k + 1)
  }

  function WeakCandidate(topics: seq<Topic>, weak: seq<int>, d: Draw): Option<nat>
    requires ValidDraw(d, |weak|, |topics|)
  {
    if weak != [] && d.roll > WeakRollThreshold then FindTopic(topics, weak[d.weakIndex]) else None
  }

  function SelectTopic(topics: seq<Topic>, weak: seq<int>, d: Draw): (r: Result<Selection, SelectError>)
    requires ValidDraw(d, |weak|, |topics|)
    ensures r.Failure? <==> topics == []
    ensures r.Success? ==> r.value.topic in topics
    ensures r.Success? ==> (r.value.isWeakPoint <==> r.value.topic.id in weak)
  {
    var chosen :=
      match WeakCandidate(topics, weak, d)
      case Some(k) => Some(topics[k])
      case None => if topics == [] then None else Some(topics[d.uniformIndex]);
    match chosen
    case None => Failure(NoTopics)
    case Some(t) => Success(Selection(t, t.id in weak))
  }

  /** With no weak topics, or a roll of 30 or less, the pick is the uniform one. */
  lemma UniformWhenNotBiased(topics: seq<Topic>, weak: seq<int>, d: Draw)
    requires ValidDraw(d, |weak|, |topics|)
    requires topics != []
    requires weak == [] || d.roll <= WeakRollThreshold
    ensures SelectTopic(topics, weak, d) == Success(Selection(topics[d.uniformIndex], topics[d.uniformIndex].id in weak))
  {
  }

  /**
   * On the weak branch a drawn id that names a topic yields the first topic
   * with that id, flagged as a weak point.
   */
  lemma WeakBranchPicksWeakTopic(topics: seq<Topic>, weak: seq<int>, d: Draw, k: nat)
    requires ValidDraw(d, |weak|, |topics|)
    requires weak != [] && d.roll > WeakRollThreshold
    requires k < |topics| && topics[k].id == weak[d.weakIndex]
    ensures SelectTopic(topics, weak, d).Success?
    ensures SelectTopic(topics, weak, d).value.isWeakPoint
    ensures SelectTopic(topics, weak, d).value.topic.id == weak[d.weakIndex]
    ensures exists j :: 0 <= j <= k && SelectTopic(topics, weak, d).value.topic == topics[j]
  {
    var f := FindTopic(topics, weak[d.weakIndex]);
    assert f.Some?;
    assert f.value <= k;
  }

  /** A drawn weak id that names no topic falls back to the uniform pick. */
  lemma StaleWeakIdFallsBack(topics: seq<Topic>, weak: seq<int>, d: Draw)
    requires ValidDraw(d, |weak|, |topics|)
    requires topics != [] && weak != [] && d.roll > WeakRollThreshold
    requires forall j :: 0 <= j < |topics| ==> topics[j].id != weak[d.weakIndex]
    ensures SelectTopic(topics, weak, d).value.topic == topics[d.uniformIndex]
  {
  }
}

=== FILE: tracker.dfy ===
/**
 * The progress tracker of index.php (`answer` action, lines 155-176): after
 * every answer the counters advance, the difficulty level moves by at most
 * one step inside 1..5, and the weak-topic list gains or loses the
 * question's topic.
 */
module Tracker {
  import opened Store

  const MinLevel := 1
  const MaxLevel := 5
  /** Accuracy needed to raise the level (`>= 0.7`), compared exactly. */
  const PromoteRatio: real := 0.7
  /** Answers needed before the level may rise. */
  const MinAnswersToPromote := 3

  predicate NoDup(s: seq<int>) {
    forall i, j :: 0 <= i < j < |s| ==> s[i] != s[j]
  }

  /** The invariant every progress row keeps. */
  predicate Valid(p: Progress) {
    && 0 <= p.correct <= p.total
    && MinLevel <= p.difficulty <= MaxLevel
    && NoDup(p.weakPoints)
  }

  // ---------------------------------------------------------------------
  // The weak-topic list

  /** `array_values(array_diff($ws, [$x]))`: every occurrence of `x` dropped, the rest kept in order. */
  function Without(ws: seq<int>, x: int): (r: seq<int>)
    ensures forall y :: y in r <==> y in ws && y != x
    ensures |r| <= |ws|
    ensures NoDup(ws) ==> NoDup(r)
  {
    if ws == [] then []
    else if ws[0] == x then Without(ws[1..], x)
    else
      NoDupCons(ws[0], ws[1..]);
      assert ws == [ws[0]] + ws[1..];
      [ws[0]] + Without(ws[1..], x)
  }

  lemma NoDupCons(a: int, s: seq<int>)
    ensures NoDup([a] + s) <==> a !in s && NoDup(s)
  {
    var t := [a] + s;
    if a !in s && NoDup(s) {
      forall i, j | 0 <= i < j < |t| ensures t[i] != t[j] {
        if i > 0 {
          assert t[i] == s[i - 1] && t[j] == s[j - 1];
        } else {
          assert t[j] == s[j - 1];
        }
      }
    }
    if NoDup(t) {
      forall i, j | 0 <= i < j < |s| ensures s[i] != s[j] {
        assert s[i] == t[i + 1] && s[j] == t[j + 1];
      }
      forall k | 0 <= k < |s| ensures s[k] != a {
        assert s[k] == t[k + 1] && t[0] == a;
      }
    }
  }

  /** `if (!in_array($x, $ws)) $ws[] = $x;` */
  function AddIfAbsent(ws: seq<int>, x: int): (r: seq<int>)
    ensures x in r
    ensures forall y :: y in r <==> y in ws || y == x
    ensures NoDup(ws) ==> NoDup(r)
    ensures |ws| <= |r| <= |ws| + 1
    ensures r[..|ws|] == ws
  {
    if x in ws then ws else ws + [x]
  }

  /** Removing an id works piecewise, so the surviving ids keep their relative order. */
  lemma {:induction false} WithoutAppend(a: seq<int>, b: seq<int>, x: int)
    ensures Without(a + b, x) == Without(a, x) + Without(b, x)
  {
    if a == [] {
      assert a + b == b;
    } else {
      assert (a + b)[0] == a[0];
      assert (a + b)[1..] == a[1..] + b;
      WithoutAppend(a[1..], b, x);
    }
  }

  /** Removing an id that is not listed changes nothing. */
  lemma {:induction false} WithoutAbsent(ws: seq<int>, x: int)
    requires x !in ws
    ensures Without(ws, x) == ws
  {
    if ws != [] {
      WithoutAbsent(ws[1..], x);
    }
  }

  /** Adding then removing an id that was absent restores the list. */
  lemma AddThenRemove(ws: seq<int>, x: int)
    requires x !in ws
    ensures Without(AddIfAbsent(ws, x), x) == ws
  {
    WithoutAppend(ws, [x], x);
    WithoutAbsent(ws, x);
  }

  // ---------------------------------------------------------------------
  // The update rule

  /** `$total >= 3 && ($correct / $total) >= 0.7`. */
  predicate Promotes(correct: int, total: int) {
    total >= MinAnswersToPromote && (correct as real) / (total as real) >= PromoteRatio
  }

  /** The accuracy test is the integer comparison `10 * correct >= 7 * total`. */
  lemma PromotesCrossMultiplied(correct: int, total: int)
    ensures Promotes(correct, total) <==> total >= MinAnswersToPromote && 10 * correct >= 7 * total
  {
    if total < MinAnswersToPromote {
      return;
    }
    var q := (correct as real) / (total as real);
    assert q * (total as real) == correct as real;
    if q >= PromoteRatio {
      assert q * (total as real) >= PromoteRatio * (total as real);
    } else {
      assert q * (total as real) < PromoteRatio * (total as real);
    }
  }

  function NextDifficulty(p: Progress, isCorrect: bool, correct: int, total: int): int {
    if isCorrect then
      if Promotes(correct, total) && p.difficulty < MaxLevel then p.difficulty + 1 else p.difficulty
    else
      if p.difficulty > MinLevel then Max(MinLevel, p.difficulty - 1) else p.difficulty
  }

  function Max(a: int, b: int): int {
    if a >= b then a else b
  }

  /** The state change of one answer on a topic. */
  function ApplyAnswer(p: Progress, isCorrect: bool, topicId: int): (r: Progress)
    ensures r.total == p.total + 1
    ensures r.correct == p.correct + (if isCorrect then 1 else 0)
    ensures Valid(p) ==> Valid(r)
    ensures p.difficulty - 1 <= r.difficulty <= p.difficulty + 1
    ensures r.difficulty == p.difficulty + 1 <==>
      isCorrect && r.total >= 3 && 10 * r.correct >= 7 * r.total && p.difficulty < MaxLevel
    ensures r.difficulty == p.difficulty - 1 <==> !isCorrect && p.difficulty > MinLevel
    ensures isCorrect ==> topicId !in r.weakPoints
    ensures !isCorrect ==> topicId in r.weakPoints
    ensures forall y :: y != topicId ==> (y in r.weakPoints <==> y in p.weakPoints)
    ensures isCorrect ==> r.weakPoints == Without(p.weakPoints, topicId)
    ensures !isCorrect ==> r.weakPoints == AddIfAbsent(p.weakPoints, topicId)
  {
    var correct := p.correct + (if isCorrect then 1 else 0);
    var total := p.total + 1;
    PromotesCrossMultiplied(correct, total);
    var weak := if isCorrect then Without(p.weakPoints, topicId) else AddIfAbsent(p.weakPoints, topicId);
    Progress(correct, total, NextDifficulty(p, isCorrect, correct, total), weak)
  }

  /** A run of answers, each a (was it correct, topic id) pair, applied in order. */
  function ApplyAll(p: Progress, answers: seq<(bool, int)>): Progress
    decreases |answers|
  {
    if answers == [] then p
    else ApplyAll(ApplyAnswer(p, answers[0].0, answers[0].1), answers[1..])
  }

  /** Over any history of answers the row stays valid and the total counts the answers. */
  lemma {:induction false} ValidAlongHistory(p: Progress, answers: seq<(bool, int)>)
    requires Valid(p)
    ensures Valid(ApplyAll(p, answers))
    ensures ApplyAll(p, answers).total == p.total + |answers|
    ensures ApplyAll(p, answers).correct >= p.correct
    decreases |answers|
  {
    if answers != [] {
      ValidAlongHistory(ApplyAnswer(p, answers[0].0, answers[0].1), answers[1..]);
    }
  }

  /** The level after `n` answers is within `n` steps of where it started. */
  lemma {:induction false} DifficultyDrift(p: Progress, answers: seq<(bool, int)>)
    ensures p.difficulty - |answers| <= ApplyAll(p, answers).difficulty <= p.difficulty + |answers|
    decreases |answers|
  {
    if answers != [] {
      DifficultyDrift(ApplyAnswer(p, answers[0].0, answers[0].1), answers[1..]);
    }
  }

  /** A third correct answer in a row from level 1 raises the level to 2. */
  lemma ThirdCorrectAnswerPromotes()
    ensures ApplyAnswer(Progress(2, 2, 1, []), true, 7) == Progress(3, 3, 2, [])
  {
  }

  /** A wrong answer on topic 42 at level 3 lists the topic and drops to level 2. */
  lemma WrongAnswerMarksTopic()
    ensures ApplyAnswer(Progress(0, 0, 3, []), false, 42) == Progress(0, 1, 2, [42])
  {
  }
}
